=== FILE: README.md ===
# Poll lifecycle and tally engine — a Dafny model

This project models the core of a small anonymous-polling backend. A moderator
creates a poll and receives two signed tokens: a voter token and a close
token. Voters present the voter token to cast votes. The moderator presents
the close token to close the poll and receive the tally. The model covers the
pure decision logic of the three request handlers:

- `createPoll` builds the `poll_meta` row, the indexed `poll_responses` rows
  and the single batch that stores them. It then builds the voter-token and
  close-token payloads.
- `addVote` admits or refuses a vote using only the verified voter-token
  payload and the request body. It then builds exactly one `vote` row.
- `getResults` checks the close token. It then passes the close gate (the poll
  exists and is not yet ended) and marks the poll ended. Finally it rebuilds
  the candidate-answer list from idx-keyed rows and folds the scanned votes
  into a `count`/`counts` tally or into one text line per free-text answer.

The request validation rules of `models.ts` are written out as predicates over
a JSON-like request body.

Modules, one per concern:

- `Wrappers`: `Option` and `Result`.
- `Tokens`: the token payload (`Claims`) and the signing and verification
  functions. Tokens are symbolic: a token is either a set of claims signed
  with a key, or an opaque string. Verification with a key succeeds exactly
  on tokens signed with that key. This is a perfect-cryptography abstraction,
  stated as ordinary functions, so no axioms are needed.
- `Models`: the record shapes, the two token payload encodings, and the
  validation rules. It also has typed views of valid bodies.
- `Store`: the three tables and the batch statements, plus a poll's state
  (`Missing`, `Open` or `Closed`) read off `poll_meta`. It also defines what
  a complete scan of a poll's rows is.
- `Aggregate`: the folds run at close time. These are the sparse-array
  rebuild of the answers, the counting fold, and the export lines and URL.
- `Poll`: `createPoll`.
- `Vote`: `addVote`.
- `Results`: `getResults`.
- `Lifecycle`: properties that span handlers. Creation opens a poll, closing
  is terminal, and the tokens handed out at creation are accepted later by
  voting and closing.

The model follows the code as written, including its quirks.
`body.responseIdx || 99999` makes index 0 look like a missing index, so a
vote for the first answer is refused by every poll with at most 99999
answers. The index test has no lower bound, so negative indices are admitted.
The close update is unconditional.

Several inputs become parameters: the clock readings (`now` on the server and
`dbNow` for the database's `now()`), the generated poll id, the signing key,
the export bucket name, and the rows each scan delivers.

## Model

| member | source | states |
|---|---|---|
| Tokens.Sign | src/poll.ts:71-79 | a signed payload verifies under the signing key and yields exactly the signed claims; it verifies under no other key |
| Tokens.VerifiedTokenIsOwnSignature | src/vote.ts:23-27 | only tokens signed with the key verify under it, and a verified token is the signature of the claims it yields |
| Models.PollClaims | src/models.ts:1-6 | the voter-token payload reads back as the same `PollJWT` (uuid, question, freeResponse, optional responses) and carries no `started` |
| Models.EndClaims | src/models.ts:8-11 | the close-token payload passes the close handler's shape test, giving the same uuid and start time, and carries neither `freeResponse` nor `responses` |
| Models.ClaimsOf | src/vote.ts:22-27 | verifying a body field gives the claims of a token signed with the key, and otherwise the empty object left by the empty `catch` |
| Models.Utf16Length | src/models.ts:33 | the length the `min`/`max` rules measure is JavaScript's UTF-16 length: at least one and at most two units per character |
| Models.BasicPlaneLength | src/models.ts:33 | text inside the Basic Multilingual Plane has exactly one unit per character |
| Models.AstralLength | src/models.ts:36 | text made of characters outside the Basic Multilingual Plane has exactly two units per character |
| Models.ParsePollCreation | src/models.ts:32-37 | a creation body is accepted exactly when it meets the rules: question 8–500 UTF-16 units; freeResponse present and boolean; responses a non-empty array when freeResponse is false; each element a non-blank string of at most 250 UTF-16 units. The typed result carries those values |
| Models.EmojiQuestionAdmitted | src/models.ts:33 | a question of four emoji is eight units long and meets `min:8` |
| Models.LongEmojiAnswerRefused | src/models.ts:36 | an answer of 200 emoji is 400 units long and fails `max:250` |
| Models.ParseVoteCreation | src/models.ts:44-48 | a vote body is accepted exactly when it meets the rules: pollJwt present; at least one of customResponse or responseIdx; customResponse a non-blank string of at most 250 UTF-16 units; responseIdx an integer. The typed result has a field exactly when the body has that key |
| Store.Execute | src/poll.ts:48-59 | a meta INSERT writes the question and kind under the id and keeps an existing row's `ended` (unset for a new row), leaving other polls and the other tables alone; a response INSERT writes its answer under (uuid, idx) and leaves every other key alone |
| Store.InsertVote | src/vote.ts:48-61 | the vote INSERT adds exactly the given row after the existing votes and leaves the poll tables untouched |
| Store.MarkEnded | src/poll.ts:144-148 | the UPDATE sets the poll's `ended` to the database time and changes nothing else: other polls' rows, the answer rows and the votes are kept |
| Aggregate.Place | src/poll.ts:163 | `arr[idx] = response` on a JavaScript array: the slot at idx holds the response, the array grows with holes past its end, and a negative index leaves the elements unchanged |
| Aggregate.Rebuild | src/poll.ts:151-177 | the `responsesObj[idx] = response` fold: every row with a non-negative index lands in the array at that index, and the last row's write wins |
| Aggregate.RebuildLength | src/poll.ts:151-178 | the rebuilt answer array reaches exactly one past the largest index any scanned row names |
| Aggregate.RebuildEntries | src/poll.ts:151-178 | a slot of the rebuilt array is a hole exactly when no row names its index; otherwise it holds what a row stores there |
| Aggregate.RebuildOrderFree | src/poll.ts:151-178 | rows that agree per index rebuild to the same array whatever their arrival order |
| Aggregate.RebuildDense | src/poll.ts:151-178 | rows numbered 0..n-1 (in any order, repeats allowed) rebuild to the n answers with no holes |
| Aggregate.TallyOf | src/poll.ts:181-206 | the counting fold: `count` is the number of scanned votes, the keys of `counts` are exactly the scanned answer values, and each count is that value's multiplicity |
| Aggregate.TallyOrderFree | src/poll.ts:181-206 | the tally depends only on the multiset of scanned votes |
| Aggregate.TallySum | src/poll.ts:191-194 | the per-answer counts add up to `count` |
| Aggregate.ExportLines | src/poll.ts:225-227 | one line per scanned answer in arrival order; each line is the answer (`null` for a missing one) followed by a line break |
| Aggregate.ExportLineCount | src/poll.ts:225-227 | when no answer contains a line break, the exported object has exactly one line per scanned answer |
| Aggregate.EmbeddedLineBreak | src/poll.ts:225-227 | a single answer containing a line break writes two lines, so the object's line count can exceed `count` |
| Aggregate.ExportUrl | src/poll.ts:245-247 | the URL is the storage host, then the bucket name, `/`, the poll id and `.txt`, each at its own position in the string |
| Aggregate.ExportUrlInjective | src/poll.ts:246 | different polls get different export URLs |
| Vote.Disallowed | src/vote.ts:36-41 | the refusal test: a text vote is refused unless the poll takes free text and no index is sent; an index vote is refused by a free-text or close payload, and otherwise exactly when `responseIdx \|\| 99999` is not below the number of answers |
| Vote.VoteRowFor | src/vote.ts:47-61 | the inserted row belongs to the token's poll and sets exactly one answer column: the free text, or `responseIdx \|\| 0` |
| Vote.Admit | src/vote.ts:29-45 | a payload without uuid gets 'Invalid JWT'; otherwise the vote is refused exactly when the refusal test holds, and an admitted vote yields the row for the token's poll |
| Vote.AddVote | src/vote.ts:12-65 | an invalid body gets the validation error; a valid one gets exactly the admission answer for its token's verified payload. An accepted vote appends exactly that row (the token's poll and the vote's answer), and a refused one changes nothing |
| Vote.AdmissionIgnoresDatabase | src/vote.ts:34-45 | the vote handler's answer is the same for every database: admission reads nothing |
| Vote.UnverifiedTokenRejected | src/vote.ts:29-31 | a valid body whose token was not signed with the key gets 'Invalid JWT' and writes no row |
| Vote.ZeroIndexRefused | src/vote.ts:39-40 | index 0 is admitted by an indexed payload only when it lists more than 99999 answers |
| Vote.MissingIndexRefused | src/vote.ts:39-40 | a vote with no index is judged like index 0 and, if admitted, is stored as index 0 |
| Vote.NegativeIndexAdmitted | src/vote.ts:39-40 | any negative index is admitted by an indexed payload and stored as given |
| Vote.NoAnswersRefuseIndex | src/vote.ts:39-40 | a payload without `responses` refuses every non-negative or missing index |
| Vote.IndexedAdmission | src/vote.ts:36-45 | for an indexed payload with n ≤ 99999 answers, index i is admitted exactly when i < n and i ≠ 0 |
| Vote.FreeTextAdmission | src/vote.ts:36-38 | a free-text vote is admitted exactly by a free-response payload, and only when it carries no index |
| Vote.CloseTokenCannotVote | src/vote.ts:36-37 | a close-token payload (it has uuid but no freeResponse) never admits a vote |
| Poll.ResponseRows | src/poll.ts:38-45 | a free-response poll gets no answer rows; an indexed poll gets one row per answer under its uuid, with row i holding index i and answer i |
| Poll.CreationBatch | src/poll.ts:48-59 | the batch is the meta insert followed by one insert per answer row, in order; its length is 1 + the number of rows |
| Poll.VoterPayload | src/poll.ts:62-69 | the voter payload has the meta row's uuid and question and the request's freeResponse; it has `responses` exactly for an indexed poll, equal to `body.responses \|\| []` |
| Poll.CreatePoll | src/poll.ts:20-86 | creation succeeds exactly on a valid body and writes nothing otherwise; the returned payload is the voter payload for the new id built from the request (its question, kind and answers), the voter token verifies to it, and the close token verifies to exactly the claims {uuid: the new id, started: the creation time} |
| Poll.CreationBatchEffect | src/poll.ts:48-59 | running the batch upserts the meta row (keeping any earlier `ended`), then writes the answer rows into the response table in order, and leaves the votes untouched |
| Poll.TablesAfterCreation | src/poll.ts:38-59 | after the batch every answer row is stored under (poll id, index); the only new keys are those rows' keys; other polls' answer rows keep their values |
| Poll.CreatePollEffect | src/poll.ts:31-59 | the same effect, stated for a successful creation request |
| Results.CheckEnd | src/poll.ts:109-121 | a close payload is accepted only with both uuid and started present and started strictly before now; every refusal is 'Invalid' |
| Results.OpenPoll | src/poll.ts:124-134 | the close gate passes exactly when the poll is open (meta row present, `ended` unset) |
| Results.Tabulate | src/poll.ts:150-247 | the report names the closed poll with its stored question and kind. An indexed poll reports the rebuilt answer array and the tally's counts; a free-response poll reports the export lines and its URL. `count` is the number of scanned votes |
| Results.GetResults | src/poll.ts:88-250 | a close request succeeds exactly when `endJwt` is given, its payload passes the close check, and the token's poll is open. It then reports the token's poll and sets only that poll's `ended`; a refused request changes nothing |
| Results.RefusedCloseTokenReadsNothing | src/poll.ts:109-116 | a refused close token gets the same 'Invalid' answer for every database and changes none |
| Results.CloseTokenTimeCheck | src/poll.ts:109-116 | a close token stamped at time t is accepted exactly when now > t |
| Results.VoterTokenCannotClose | src/poll.ts:109-111 | a voter-token payload has no `started` and never passes the close check |
| Results.ClosedPollRefused | src/poll.ts:131-134 | a close request for a poll that is missing or already ended gets 'No poll with that UUID' and changes nothing |
| Results.SecondCloseRefused | src/poll.ts:131-148 | replaying a successful close request on the database it left behind is refused |
| Results.CloseTouchesOnlyThePoll | src/poll.ts:144-148 | closing leaves every other poll's state and the answer and vote tables unchanged |
| Results.CountsAddUp | src/poll.ts:181-213 | for an indexed poll the counts add up to `count`, which is the number of scanned votes, and each count is its answer's multiplicity |
| Results.ExportMatchesCount | src/poll.ts:214-247 | for a free-response poll there is one line per scanned vote, and without embedded line breaks the object's line count is `count` |
| Results.ReportOrderFree | src/poll.ts:151-206 | the indexed report does not depend on the order in which the driver delivers rows |
| Lifecycle.CreateOpens | src/poll.ts:48-59 | creating a poll under a fresh id moves it from Missing to Open, changes no other poll's state and no votes, and keeps the tables well formed |
| Lifecycle.CreateStoresAnswers | src/poll.ts:38-59 | after creation the poll's stored answer rows are exactly the rows built for it |
| Lifecycle.StoredAnswersRebuild | src/poll.ts:151-177 | the stored answer rows of a new indexed poll rebuild, in any scan order, to the answers given at creation |
| Lifecycle.AnswersRoundTrip | src/poll.ts:151-177 | a new indexed poll closed with its own close token reports the answers given at creation, in their original order, whatever the scan order |
| Lifecycle.IssuedTokenAdmission | src/vote.ts:36-45 | the voter token of a new indexed poll with n answers admits index i exactly when i ≠ 0 and i < n, or when i = 0 and n > 99999; the stored row holds i |
| Lifecycle.IssuedFreeTokenAdmission | src/vote.ts:36-38 | the voter token of a new free-response poll admits exactly the free-text votes that carry no index |
| Lifecycle.IssuedCloseTokenCannotVote | src/poll.ts:74-79 | the close token a new poll hands out is refused for every vote, because its payload is exactly {uuid, started} and carries no `freeResponse` |
| Lifecycle.IssuedCloseTokenWorks | src/poll.ts:74-77 | the close token of a new poll passes the close check for that poll at every later instant, and never at or before creation |
| Lifecycle.IssuedCloseTokenCloses | src/poll.ts:124-148 | a new poll closed with its own close token at any later instant is closed: the request succeeds, reports on that poll, and leaves it Closed |
| Lifecycle.VoteKeepsStates | src/vote.ts:47-61 | voting changes no poll's state; an admitted vote adds its row to its own poll's votes only |
| Lifecycle.ClosedIsTerminal | src/poll.ts:131-148 | no handler moves a closed poll back to open |
| Lifecycle.CloseKeepsWellFormed | src/poll.ts:144-148 | closing keeps every meta row under its own id and every answer row attached to a poll |
| Lifecycle.TallyMatchesStore | src/poll.ts:180-206 | with a complete scan, `count` is the number of stored votes for the poll; for an indexed poll each count is how many stored votes chose that answer, and the counts add up to `count` |
| Lifecycle.ColourPoll | src/vote.ts:36-45 | a two-answer poll created from a valid body admits a vote for index 1 and refuses a vote for index 0 |

## Left out

- HTTP handling: Express request and response objects, `sendJson`, `okJson`
  and `validatorErrorsToJson` in src/utils.ts. The model returns a `Result`
  whose failure names the error message. A successful vote returns the row
  it wrote, which stands for the `{success: true}` reply.
- Cryptography and secrets: `sign`/`verify` from jsonwebtoken, `getJWTSecret`
  and all of src/config.ts. Tokens are symbolic and the key is a parameter.
  The `iat` claim jsonwebtoken adds is not modelled. There is no expiry, and
  the source has none either.
- `payload == null` in the close handler: verification never yields `null`
  for payloads the service signs, so the model has no such case.
- The database driver: `getClient` (src/db.ts), connection handling, and the
  `eachRow`/`nextPage` paging. A scan is the finite sequence of rows the
  driver delivers, passed in as a parameter. `IsVoteScan` and
  `IsResponseScan` relate a scan to the tables. A page error would abort the
  request after the close update; it is not modelled. The batch is applied as
  one unit, as the driver promises.
- The `poll_responses` key is taken to be (uuid, idx), and the vote row's own
  generated id is not kept. The table definitions are not part of the source.
- Object storage: the write stream, `stream.end()` and waiting for `finish`.
  The export is modelled as the sequence of lines written plus the URL string.
  src/config.ts exports `bucket` as a function, yet src/poll.ts calls
  `bucket.file(...)` on it. The model assumes the intended bucket object.
- Concurrency: the read-then-unconditional-update at src/poll.ts:124-148.
  Two close requests racing past the gate could both tally. The sequential
  model proves only that a close request replayed after another has finished
  is refused. It claims no single-winner behaviour under races.
- Clocks and dates: timestamps are integers, and the two clock readings are
  parameters. The close check compares against `new Date(payload.started)`.
  An unparsable date would compare false and pass, but only the service signs
  `started`, and it always holds a real date, so this is not modelled.
- uuid generation: the poll id is a parameter. A meta insert over an existing
  id keeps that row's `ended`, as a Cassandra INSERT does. Lemmas that need a
  fresh id assume `StateOf(db, u) == Missing`.
- validatorjs internals are approximated:
  - `required` fails on an absent field, `null`, a blank string (space, tab,
    CR, LF) or an empty array.
  - Other rules apply only when `required` would pass.
  - `required_if:freeResponse,false` fires on the JSON value `false`.
  - `required_without` treats a field as missing when it would fail `required`.
  - Coercions of numeric or boolean strings (`"1"`, `"true"`) and numeric
    `min`/`max` on a non-string question or answer are not modelled; such
    values fail the model's rules.
- Models.ParseVoteCreation: this rule is stricter than validatorjs. A vote
  body whose customResponse or responseIdx is present but null, blank, or of
  the wrong JSON type is refused at validation. The source refuses every
  such body too, at validation or at admission, with a different message.
  The exceptions are a customResponse that is a number, or a non-empty
  array of at most 250 elements (`max` measures an array by its element
  count), and a responseIdx given as a numeric string such as `"1"`
  (`integer` accepts it, and the admission test compares it by coercion).
  These pass the source's rules and reach admission and the database insert.
- Results.ExportMatchesCount: the line-count property is claimed only for
  answers without line breaks. Aggregate.EmbeddedLineBreak shows that it
  fails otherwise.

=== FILE: aggregate.dfy ===
/** The folds the close handler runs over scanned rows: rebuilding the list of
    candidate answers from idx-keyed rows, counting indexed votes, and writing
    free-text answers out one line each. */
module Aggregate {
  import opened Wrappers
  import opened Models

  // ---------------------------------------------------------------------------
  // Rebuilding the candidate answers

  /** A JavaScript array that may have holes; a hole reads back as `None`
      (it serialises as `null`). */
  type Sparse = seq<Option<string>>

  function Holes(n: nat): (r: Sparse)
    ensures |r| == n && forall i :: 0 <= i < n ==> r[i].None?
  {
    seq(n, _ => None)
  }

  /** `arr[idx] = response`. Writing past the end grows the array and leaves
      holes; a negative index names a plain property and leaves the elements
      alone. */
  function Place(arr: Sparse, idx: int, response: string): (r: Sparse)
    ensures idx < 0 ==> r == arr
    ensures 0 <= idx ==> |r| == if idx < |arr| then |arr| else idx + 1
    ensures forall i :: 0 <= i < |r| ==>
      r[i] == if i == idx then Some(response) else if i < |arr| then arr[i] else None
  {
    if idx < 0 then arr
    else if idx < |arr| then arr[idx := Some(response)]
    else arr + Holes(idx - |arr|) + [Some(response)]
  }

  /** The rows in arrival order, each stored at its own index. */
  function Rebuild(scan: seq<PollResponse>): (r: Sparse)
    ensures forall row :: row in scan && row.idx >= 0 ==> row.idx < |r| && r[row.idx].Some?
    ensures |scan| > 0 && scan[|scan| - 1].idx >= 0 ==>
      r[scan[|scan| - 1].idx] == Some(scan[|scan| - 1].response)
  {
    if |scan| == 0 then []
    else
      var last := scan[|scan| - 1];
      Place(Rebuild(scan[..|scan| - 1]), last.idx, last.response)
  }

  /** Some row of `scan` names index `n` or a later one. */
  predicate Reaches(scan: seq<PollResponse>, n: int) {
    exists row :: row in scan && row.idx >= n
  }

  /** Some row of `scan` is stored at index `i`. */
  predicate Indexed(scan: seq<PollResponse>, i: int) {
    exists row :: row in scan && row.idx == i
  }

  /** Some row of `scan` stores `x` at index `i`. */
  predicate Holds(scan: seq<PollResponse>, i: int, x: string) {
    exists row :: row in scan && row.idx == i && row.response == x
  }

  /** No two rows disagree on what is stored at an index (true of the rows
      of one poll, which are keyed by index). */
  predicate Consistent(scan: seq<PollResponse>) {
    forall a, b :: a in scan && b in scan && a.idx == b.idx ==> a.response == b.response
  }

  lemma SplitLast<T>(s: seq<T>)
    requires |s| > 0
    ensures s == s[..|s| - 1] + [s[|s| - 1]]
    ensures forall x :: x in s <==> x in s[..|s| - 1] || x == s[|s| - 1]
  {
    assert s == s[..|s| - 1] + [s[|s| - 1]];
  }

  /** The rebuilt array reaches just past the largest index any row names. */
  lemma {:induction false} RebuildLength(scan: seq<PollResponse>)
    ensures forall n: nat :: n < |Rebuild(scan)| <==> Reaches(scan, n)
  {
    if |scan| > 0 {
      var init := scan[..|scan| - 1];
      var last := scan[|scan| - 1];
      SplitLast(scan);
      RebuildLength(init);
      forall n: nat
        ensures n < |Rebuild(scan)| <==> Reaches(scan, n)
      {
        if n < |Rebuild(init)| {
          assert Reaches(init, n);
          var row :| row in init && row.idx >= n;
          assert row in scan;
        }
        if Reaches(scan, n) {
          var row :| row in scan && row.idx >= n;
          if row != last {
            assert row in init;
            assert Reaches(init, n);
          }
        }
        if last.idx >= n {
          assert last in scan;
        }
      }
    }
  }

  /** Each slot of the rebuilt array is a hole exactly when no row names its
      index, and otherwise holds what some row stores there. */
  lemma {:induction false} RebuildEntries(scan: seq<PollResponse>)
    ensures forall i :: 0 <= i < |Rebuild(scan)| ==>
      (Rebuild(scan)[i].None? <==> !Indexed(scan, i))
    ensures forall i :: 0 <= i < |Rebuild(scan)| && Rebuild(scan)[i].Some? ==>
      Holds(scan, i, Rebuild(scan)[i].value)
  {
    if |scan| > 0 {
      var init := scan[..|scan| - 1];
      var last := scan[|scan| - 1];
      SplitLast(scan);
      RebuildEntries(init);
      RebuildLength(init);
      var r := Rebuild(scan);
      var r0 := Rebuild(init);
      forall i | 0 <= i < |r|
        ensures r[i].None? <==> !Indexed(scan, i)
        ensures r[i].Some? ==> Holds(scan, i, r[i].value)
      {
        if i == last.idx {
          assert last in scan;
        } else if i < |r0| {
          if Indexed(scan, i) {
            var row :| row in scan && row.idx == i;
            assert row in init;
          }
          if r0[i].Some? {
            var row :| row in init && row.idx == i && row.response == r0[i].value;
            assert row in scan;
          }
        }
      }
    }
  }

  /** When rows agree per index, the rebuilt array depends only on which rows
      arrived, not on the order of arrival. */
  lemma RebuildOrderFree(a: seq<PollResponse>, b: seq<PollResponse>)
    requires Consistent(a)
    requires forall row :: row in a <==> row in b
    ensures Rebuild(a) == Rebuild(b)
  {
    RebuildLength(a);
    RebuildLength(b);
    RebuildEntries(a);
    RebuildEntries(b);
    var ra, rb := Rebuild(a), Rebuild(b);
    var n: nat := if |ra| < |rb| then |ra| else |rb|;
    assert Reaches(a, n) <==> Reaches(b, n);
    assert |ra| == |rb|;
    forall i | 0 <= i < |ra|
      ensures ra[i] == rb[i]
    {
      assert Indexed(a, i) <==> Indexed(b, i);
      if ra[i].Some? {
        var y :| y in b && y.idx == i && y.response == rb[i].value;
        assert y in a;
      }
    }
  }

  /** Rows numbered 0 to |answers|-1 in any order and multiplicity rebuild to
      exactly `answers`, with no holes. */
  lemma RebuildDense(scan: seq<PollResponse>, answers: seq<string>)
    requires forall row :: row in scan ==> 0 <= row.idx < |answers| && row.response == answers[row.idx]
    requires forall i :: 0 <= i < |answers| ==> Indexed(scan, i)
    ensures Rebuild(scan) == seq(|answers|, i requires 0 <= i < |answers| => Some(answers[i]))
  {
    RebuildLength(scan);
    RebuildEntries(scan);
    var r := Rebuild(scan);
    assert !Reaches(scan, |answers|);
    if |answers| > 0 {
      assert Indexed(scan, |answers| - 1);
      var row :| row in scan && row.idx == |answers| - 1;
      assert Reaches(scan, |answers| - 1);
    }
    assert |r| == |answers|;
    forall i | 0 <= i < |r|
      ensures r[i] == Some(answers[i])
    {
      assert Indexed(scan, i);
      var row :| row in scan && row.idx == i && row.response == r[i].value;
    }
  }

  // ---------------------------------------------------------------------------
  // Counting indexed votes

  /** The running total and the per-answer counts. JavaScript keys a `null`
      answer column under "null"; `None` is that key. */
  datatype Tally = Tally(count: nat, counts: map<Option<int>, nat>)

  /** `counts[voteFor] = (counts[voteFor] || 0) + 1` */
  function Bump(counts: map<Option<int>, nat>, key: Option<int>): map<Option<int>, nat>
  {
    counts[key := (if key in counts then counts[key] else 0) + 1]
  }

  /** The counting fold over the `response_idx` column of the scanned votes,
      in arrival order. */
  function TallyOf(votes: seq<Option<int>>): (t: Tally)
    ensures t.count == |votes|
    ensures forall k :: k in t.counts <==> k in votes
    ensures forall k :: k in t.counts ==> t.counts[k] == multiset(votes)[k]
  {
    if |votes| == 0 then Tally(0, map[])
    else
      var init := votes[..|votes| - 1];
      var last := votes[|votes| - 1];
      assert votes == init + [last];
      var t := TallyOf(init);
      Tally(t.count + 1, Bump(t.counts, last))
  }

  /** The tally depends only on the multiset of votes scanned. */
  lemma TallyOrderFree(a: seq<Option<int>>, b: seq<Option<int>>)
    requires multiset(a) == multiset(b)
    ensures TallyOf(a) == TallyOf(b)
  {
    assert |a| == |multiset(a)| == |multiset(b)| == |b|;
    var ta, tb := TallyOf(a), TallyOf(b);
    forall k ensures k in ta.counts <==> k in tb.counts {
      assert k in a <==> k in multiset(a);
      assert k in b <==> k in multiset(b);
    }
    assert ta.counts == tb.counts;
  }

  ghost function Pick<K>(m: map<K, nat>): (k: K)
    requires |m| > 0
    ensures k in m
  {
    assert m.Keys != {};
    var k :| k in m; k
  }

  /** The sum of a map's values. */
  ghost function SumValues<K>(m: map<K, nat>): nat
    decreases |m|
  {
    if |m| == 0 then 0
    else
      var k := Pick(m);
      assert (m - {k}).Keys == m.Keys - {k};
      m[k] + SumValues(m - {k})
  }

  /** The sum does not depend on which key is taken out first. */
  lemma {:induction false} SumValuesRemove<K>(m: map<K, nat>, k: K)
    requires k in m
    ensures SumValues(m) == m[k] + SumValues(m - {k})
    decreases |m|
  {
    var j := Pick(m);
    if j != k {
      var mj, mk := m - {j}, m - {k};
      assert mj.Keys == m.Keys - {j};
      assert mk.Keys == m.Keys - {k};
      SumValuesRemove(mj, k);
      SumValuesRemove(mk, j);
      assert mj - {k} == mk - {j};
    }
  }

  lemma BumpSum(counts: map<Option<int>, nat>, key: Option<int>)
    ensures SumValues(Bump(counts, key)) == SumValues(counts) + 1
  {
    var b := Bump(counts, key);
    SumValuesRemove(b, key);
    if key in counts {
      SumValuesRemove(counts, key);
      assert b - {key} == counts - {key};
    } else {
      assert b - {key} == counts;
    }
  }

  /** The per-answer counts add up to the total. */
  lemma {:induction false} TallySum(votes: seq<Option<int>>)
    ensures SumValues(TallyOf(votes).counts) == TallyOf(votes).count
  {
    if |votes| > 0 {
      TallySum(votes[..|votes| - 1]);
      BumpSum(TallyOf(votes[..|votes| - 1]).counts, votes[|votes| - 1]);
    }
  }

  // ---------------------------------------------------------------------------
  // Exporting free-text answers

  /** `resp + "\n"` turns a `null` column into the text "null". */
  function Text(answer: Option<string>): string
  {
    if answer.Some? then answer.value else "null"
  }

  /** The lines written to the export object, one per scanned answer, in
      arrival order. */
  function ExportLines(answers: seq<Option<string>>): (lines: seq<string>)
    ensures |lines| == |answers|
    ensures forall i :: 0 <= i < |answers| ==> lines[i] == Text(answers[i]) + "\n"
  {
    if |answers| == 0 then []
    else ExportLines(answers[..|answers| - 1]) + [Text(answers[|answers| - 1]) + "\n"]
  }

  /** The object's content: the lines written one after another. */
  function Content(lines: seq<string>): string
  {
    if |lines| == 0 then "" else Content(lines[..|lines| - 1]) + lines[|lines| - 1]
  }

  function NewlineCount(s: string): nat
  {
    if |s| == 0 then 0 else NewlineCount(s[..|s| - 1]) + (if s[|s| - 1] == '\n' then 1 else 0)
  }

  lemma {:induction false} NewlineCountAppend(a: string, b: string)
    ensures NewlineCount(a + b) == NewlineCount(a) + NewlineCount(b)
    decreases |b|
  {
    if |b| > 0 {
      var b0 := b[..|b| - 1];
      assert (a + b)[..|a + b| - 1] == a + b0;
      assert (a + b)[|a + b| - 1] == b[|b| - 1];
      assert b0 == b[..|b| - 1];
      NewlineCountAppend(a, b0);
      assert NewlineCount(b) == NewlineCount(b0) + (if b[|b| - 1] == '\n' then 1 else 0);
    } else {
      assert a + b == a;
    }
  }

  lemma {:induction false} NoNewlineCount(s: string)
    requires '\n' !in s
    ensures NewlineCount(s) == 0
  {
    if |s| > 0 {
      assert s[|s| - 1] in s;
      var s0 := s[..|s| - 1];
      assert forall c :: c in s0 ==> c in s;
      NoNewlineCount(s0);
    }
  }

  /** When no answer contains a line break, the exported object has exactly
      one line per scanned answer. */
  lemma {:induction false} ExportLineCount(answers: seq<Option<string>>)
    requires forall i :: 0 <= i < |answers| && answers[i].Some? ==> '\n' !in answers[i].value
    ensures NewlineCount(Content(ExportLines(answers))) == |answers|
  {
    if |answers| > 0 {
      var init := answers[..|answers| - 1];
      var lines := ExportLines(answers);
      assert lines[..|lines| - 1] == ExportLines(init);
      assert Content(lines) == Content(ExportLines(init)) + lines[|lines| - 1];
      ExportLineCount(init);
      OneLine(answers[|answers| - 1]);
      NewlineCountAppend(Content(ExportLines(init)), lines[|lines| - 1]);
    }
  }

  /** An answer without a line break exports as exactly one line. */
  lemma OneLine(answer: Option<string>)
    requires answer.Some? ==> '\n' !in answer.value
    ensures NewlineCount(Text(answer) + "\n") == 1
  {
    var t := Text(answer);
    if answer.None? {
      assert t == "null";
    }
    NoNewlineCount(t);
    NewlineCountAppend(t, "\n");
  }

  /** A single answer with a line break in it writes two lines. */
  lemma EmbeddedLineBreak()
    ensures NewlineCount(Content(ExportLines([Some("a\nb")]))) == 2
  {
    var answers := [Some("a\nb")];
    assert answers[..0] == [];
    var lines := ExportLines(answers);
    assert lines[0] == "a\nb" + "\n" == "a\nb\n";
    assert lines == ["a\nb\n"];
    assert lines[..0] == [];
    assert Content(lines) == "a\nb\n";
    assert "a\nb\n"[..3] == "a\nb";
    assert "a\nb"[..2] == "a\n";
    assert "a\n"[..1] == "a";
    assert "a"[..0] == "";
  }

  /** The public address of a poll's export object. */
  const StorageHost := "https://storage.googleapis.com/"

  function ExportUrl(bucket: string, u: string): (url: string)
    ensures |url| == |StorageHost| + |bucket| + 1 + |u| + 4
    ensures url[..|StorageHost|] == StorageHost
    ensures url[|StorageHost|..|StorageHost| + |bucket|] == bucket
    ensures url[|StorageHost| + |bucket|] == '/'
    ensures url[|url| - 4 - |u|..|url| - 4] == u
    ensures url[|url| - 4..] == ".txt"
  {
    StorageHost + bucket + "/" + u + ".txt"
  }

  /** Different polls export to different addresses. */
  lemma ExportUrlInjective(bucket: string, u1: string, u2: string)
    requires ExportUrl(bucket, u1) == ExportUrl(bucket, u2)
    ensures u1 == u2
  {
    var p := "https://storage.googleapis.com/" + bucket + "/";
    var url := ExportUrl(bucket, u1);
    assert url == p + u1 + ".txt";
    assert url == p + u2 + ".txt";
    assert |u1| == |u2|;
    assert u1 == url[|p|..|p| + |u1|];
    assert u2 == url[|p|..|p| + |u2|];
  }
}

=== FILE: lifecycle.dfy ===
/** The poll lifecycle across the three handlers: a poll goes from missing
    to open when it is created and from open to closed when its results are
    taken, and closed is terminal. Also the end-to-end facts that link what
    creation hands out with what voting and closing accept. */
module Lifecycle {
  import opened Wrappers
  import opened Tokens
  import opened Models
  import opened Store
  import opened Aggregate
  import opened Poll
  import opened Vote
  import opened Results

  /** Creating a poll under a fresh id opens it, leaves every other poll's
      state and the votes alone, and keeps the tables well formed. */
  lemma CreateOpens(body: Body, u: Uuid, now: int, key: Key, db: Db)
    requires WellFormed(db) && StateOf(db, u) == Missing
    requires CreatePoll(body, u, now, key, db).0.Success?
    ensures var db' := CreatePoll(body, u, now, key, db).1;
      && WellFormed(db')
      && StateOf(db', u) == Open
      && db'.votes == db.votes
      && (forall v :: v != u ==> StateOf(db', v) == StateOf(db, v))
  {
    CreatePollEffect(body, u, now, key, db);
    var pc := ParsePollCreation(body).value;
    NewPollTables(db, CreatePoll(body, u, now, key, db).1, u, pc.question, pc.freeResponse, ResponseRows(pc, u));
  }

  /** The table-level part of creation: a new meta row plus answer rows keyed
      under its uuid keep the tables well formed and open only that poll. */
  lemma NewPollTables(db: Db, db': Db, u: Uuid, question: string, freeResponse: bool, rows: seq<PollResponse>)
    requires WellFormed(db) && u !in db.meta
    requires db'.meta == db.meta[u := PollMeta(u, None, question, freeResponse)]
    requires forall k :: k in db'.responses && k !in db.responses ==>
               exists i :: 0 <= i < |rows| && k == (u, rows[i].idx)
    ensures WellFormed(db')
    ensures StateOf(db', u) == Open
    ensures forall v :: v != u ==> StateOf(db', v) == StateOf(db, v)
  {
    forall k | k in db'.responses
      ensures k.0 in db'.meta
    {
      if k !in db.responses {
        var i :| 0 <= i < |rows| && k == (u, rows[i].idx);
      }
    }
  }

  /** A new poll's answer rows are exactly the rows creation built for it. */
  lemma CreateStoresAnswers(body: Body, u: Uuid, now: int, key: Key, db: Db)
    requires WellFormed(db) && StateOf(db, u) == Missing
    requires CreatePoll(body, u, now, key, db).0.Success?
    ensures IsResponseScan(CreatePoll(body, u, now, key, db).1, u, ResponseRows(ParsePollCreation(body).value, u))
  {
    var pc := ParsePollCreation(body).value;
    CreatePollEffect(body, u, now, key, db);
    NewPollScan(db, CreatePoll(body, u, now, key, db).1, u, ResponseRows(pc, u));
  }

  /** The table-level part: when the only answer rows added are those of a
      poll that had none, exactly those rows are its answer rows. */
  lemma NewPollScan(db: Db, db': Db, u: Uuid, rows: seq<PollResponse>)
    requires WellFormed(db) && u !in db.meta
    requires forall i :: 0 <= i < |rows| ==>
               rows[i].uuid == u && (u, rows[i].idx) in db'.responses && db'.responses[(u, rows[i].idx)] == rows[i].response
    requires forall k :: k in db'.responses && k !in db.responses ==>
               exists i :: 0 <= i < |rows| && k == (u, rows[i].idx)
    ensures IsResponseScan(db', u, rows)
  {
    forall k | k in db'.responses && k.0 == u
      ensures PollResponse(u, k.1, db'.responses[k]) in rows
    {
      assert k !in db.responses;
      var i :| 0 <= i < |rows| && k == (u, rows[i].idx);
      assert rows[i] == PollResponse(u, k.1, db'.responses[k]);
    }
  }

  /** The answers given at creation come back from the close flow in their
      original order, whatever order the driver delivers the rows in: the
      poll is closed with its own close token, and the answer rows are
      scanned after the close. */
  lemma AnswersRoundTrip(body: Body, u: Uuid, now: int, key: Key, db: Db, later: int, dbNow: int, bucket: string,
                         scan: seq<PollResponse>, vs: seq<VoteRow>)
    requires WellFormed(db) && StateOf(db, u) == Missing
    requires CreatePoll(body, u, now, key, db).0.Success?
    requires !ParsePollCreation(body).value.freeResponse
    requires now < later
    requires var closeBody := map["endJwt" := Jwt(CreatePoll(body, u, now, key, db).0.value.endJwt)];
      IsResponseScan(GetResults(closeBody, key, later, dbNow, bucket, CreatePoll(body, u, now, key, db).1, scan, vs).1, u, scan)
    ensures var answers := ParsePollCreation(body).value.responses.value;
      var closeBody := map["endJwt" := Jwt(CreatePoll(body, u, now, key, db).0.value.endJwt)];
      var closed := GetResults(closeBody, key, later, dbNow, bucket, CreatePoll(body, u, now, key, db).1, scan, vs).0;
      && closed.Success?
      && closed.value.poll.responses == Some(seq(|answers|, i requires 0 <= i < |answers| => Some(answers[i])))
  {
    var db1 := CreatePoll(body, u, now, key, db).1;
    var closeBody := map["endJwt" := Jwt(CreatePoll(body, u, now, key, db).0.value.endJwt)];
    IssuedCloseTokenCloses(body, u, now, key, db, later, dbNow, bucket, scan, vs);
    var db2 := GetResults(closeBody, key, later, dbNow, bucket, db1, scan, vs).1;
    assert db2.responses == db1.responses;
    assert IsResponseScan(db1, u, scan);
    StoredAnswersRebuild(body, u, now, key, db, scan);
    CreatePollEffect(body, u, now, key, db);
    var report := Tabulate(u, db1.meta[u], bucket, scan, vs);
    assert !db1.meta[u].freeResponse;
    assert report.poll.responses == Some(Rebuild(scan));
  }

  /** A new poll closed with its own close token at any later instant is
      closed: the request succeeds and reports on that poll. */
  lemma IssuedCloseTokenCloses(body: Body, u: Uuid, now: int, key: Key, db: Db, later: int, dbNow: int,
                               bucket: string, rs: seq<PollResponse>, vs: seq<VoteRow>)
    requires StateOf(db, u) == Missing
    requires CreatePoll(body, u, now, key, db).0.Success?
    requires now < later
    ensures var db1 := CreatePoll(body, u, now, key, db).1;
      var closeBody := map["endJwt" := Jwt(CreatePoll(body, u, now, key, db).0.value.endJwt)];
      var closed := GetResults(closeBody, key, later, dbNow, bucket, db1, rs, vs);
      && closed.0.Success?
      && closed.0.value == Tabulate(u, db1.meta[u], bucket, rs, vs)
      && StateOf(closed.1, u) == Closed
  {
    var db1 := CreatePoll(body, u, now, key, db).1;
    var closeBody := map["endJwt" := Jwt(CreatePoll(body, u, now, key, db).0.value.endJwt)];
    CreatePollEffect(body, u, now, key, db);
    assert StateOf(db1, u) == Open;
    IssuedCloseTokenWorks(body, u, now, key, db, later);
    assert Given(closeBody, "endJwt");
  }

  /** The stored answer rows of a new indexed poll rebuild, in any scan
      order, to the answers given at creation. */
  lemma StoredAnswersRebuild(body: Body, u: Uuid, now: int, key: Key, db: Db, scan: seq<PollResponse>)
    requires WellFormed(db) && StateOf(db, u) == Missing
    requires CreatePoll(body, u, now, key, db).0.Success?
    requires !ParsePollCreation(body).value.freeResponse
    requires IsResponseScan(CreatePoll(body, u, now, key, db).1, u, scan)
    ensures var answers := ParsePollCreation(body).value.responses.value;
      Rebuild(scan) == seq(|answers|, i requires 0 <= i < |answers| => Some(answers[i]))
  {
    var pc := ParsePollCreation(body).value;
    var answers := pc.responses.value;
    var rows := ResponseRows(pc, u);
    var db' := CreatePoll(body, u, now, key, db).1;
    CreateStoresAnswers(body, u, now, key, db);
    forall row | row in scan
      ensures 0 <= row.idx < |answers| && row.response == answers[row.idx]
    {
      assert (u, row.idx) in db'.responses && row.uuid == u;
      assert PollResponse(u, row.idx, db'.responses[(u, row.idx)]) in rows;
    }
    forall i | 0 <= i < |answers|
      ensures Indexed(scan, i)
    {
      assert rows[i] in rows;
      assert (u, i) in db'.responses;
      assert PollResponse(u, i, db'.responses[(u, i)]) in scan;
    }
    RebuildDense(scan, answers);
  }

  /** The voter token a new indexed poll hands out admits an index vote
      exactly when the index passes the handler's test: below the number of
      answers and not 0, or 0 once the poll has more than 99999 answers. */
  lemma IssuedTokenAdmission(body: Body, u: Uuid, now: int, key: Key, db: Db, i: int)
    requires CreatePoll(body, u, now, key, db).0.Success?
    requires !ParsePollCreation(body).value.freeResponse
    ensures var created := CreatePoll(body, u, now, key, db).0.value;
      var n := |ParsePollCreation(body).value.responses.value|;
      var vote := VoteCreation(Jwt(created.jwt), None, Some(i));
      && (Admit(ClaimsOf(Jwt(created.jwt), key), vote).Success? <==> (i != 0 && i < n) || (i == 0 && n > NoIndex))
      && (Admit(ClaimsOf(Jwt(created.jwt), key), vote).Success? ==>
            Admit(ClaimsOf(Jwt(created.jwt), key), vote).value == VoteRow(u, Some(i), None))
  {
  }

  /** The voter token a new free-response poll hands out admits every
      free-text vote without an index and no index vote. */
  lemma IssuedFreeTokenAdmission(body: Body, u: Uuid, now: int, key: Key, db: Db, vote: VoteCreation)
    requires CreatePoll(body, u, now, key, db).0.Success?
    requires ParsePollCreation(body).value.freeResponse
    ensures var created := CreatePoll(body, u, now, key, db).0.value;
      Admit(ClaimsOf(Jwt(created.jwt), key), vote).Success? <==> vote.customResponse.Some? && vote.responseIdx.None?
  {
  }

  /** The close token a new poll hands out cannot be used to vote: its
      payload carries no `freeResponse`, so every vote is refused. */
  lemma IssuedCloseTokenCannotVote(body: Body, u: Uuid, now: int, key: Key, db: Db, vote: VoteCreation)
    requires CreatePoll(body, u, now, key, db).0.Success?
    ensures Admit(ClaimsOf(Jwt(CreatePoll(body, u, now, key, db).0.value.endJwt), key), vote) == Failure(InvalidVote)
  {
    CloseTokenCannotVote(PollEndJwt(u, now), vote);
  }

  /** The close token a new poll hands out closes that poll, from any later
      instant on. */
  lemma IssuedCloseTokenWorks(body: Body, u: Uuid, now: int, key: Key, db: Db, later: int)
    requires CreatePoll(body, u, now, key, db).0.Success?
    ensures var created := CreatePoll(body, u, now, key, db).0.value;
      CheckEnd(ClaimsOf(Jwt(created.endJwt), key), later).Success? <==> now < later
    ensures var created := CreatePoll(body, u, now, key, db).0.value;
      now < later ==> CheckEnd(ClaimsOf(Jwt(created.endJwt), key), later).value.uuid == u
  {
  }

  /** Voting changes no poll's state; an admitted vote adds one row to its
      poll's votes and leaves every other poll's votes alone. */
  lemma VoteKeepsStates(body: Body, key: Key, db: Db, v: Uuid)
    ensures var (r, db') := AddVote(body, key, db);
      && StateOf(db', v) == StateOf(db, v)
      && (WellFormed(db) ==> WellFormed(db'))
      && (r.Success? && r.value.pollUuid == v ==> VotesOf(db'.votes, v) == VotesOf(db.votes, v) + [r.value])
      && (r.Success? && r.value.pollUuid != v ==> VotesOf(db'.votes, v) == VotesOf(db.votes, v))
      && (r.Failure? ==> VotesOf(db'.votes, v) == VotesOf(db.votes, v))
  {
    var (r, db') := AddVote(body, key, db);
    if r.Success? {
      assert db'.votes[..|db'.votes| - 1] == db.votes;
    }
  }

  /** Closed is terminal: no handler takes a closed poll back to open. */
  lemma ClosedIsTerminal(db: Db, v: Uuid, body: Body, u: Uuid, now: int, dbNow: int, key: Key, bucket: string,
                         rs: seq<PollResponse>, vs: seq<VoteRow>)
    requires StateOf(db, v) == Closed
    ensures StateOf(CreatePoll(body, u, now, key, db).1, v) == Closed
    ensures StateOf(AddVote(body, key, db).1, v) == Closed
    ensures StateOf(GetResults(body, key, now, dbNow, bucket, db, rs, vs).1, v) == Closed
  {
    CreateKeepsClosed(db, v, body, u, now, key);
    VoteKeepsStates(body, key, db, v);
    CloseKeepsClosed(db, v, body, now, dbNow, key, bucket, rs, vs);
  }

  /** Creation keeps a closed poll closed, even when the new id collides
      with it: the meta insert keeps `ended`. */
  lemma CreateKeepsClosed(db: Db, v: Uuid, body: Body, u: Uuid, now: int, key: Key)
    requires StateOf(db, v) == Closed
    ensures StateOf(CreatePoll(body, u, now, key, db).1, v) == Closed
  {
    if CreatePoll(body, u, now, key, db).0.Success? {
      CreatePollEffect(body, u, now, key, db);
    }
  }

  /** Taking results keeps a closed poll closed. */
  lemma CloseKeepsClosed(db: Db, v: Uuid, body: Body, now: int, dbNow: int, key: Key, bucket: string,
                         rs: seq<PollResponse>, vs: seq<VoteRow>)
    requires StateOf(db, v) == Closed
    ensures StateOf(GetResults(body, key, now, dbNow, bucket, db, rs, vs).1, v) == Closed
  {
  }

  /** Closing keeps the tables well formed. */
  lemma CloseKeepsWellFormed(body: Body, key: Key, now: int, dbNow: int, bucket: string,
                             db: Db, rs: seq<PollResponse>, vs: seq<VoteRow>)
    requires WellFormed(db)
    ensures WellFormed(GetResults(body, key, now, dbNow, bucket, db, rs, vs).1)
  {
  }

  /** The tally agrees with the votes stored for the poll: with a complete
      scan the total is the number of stored votes for the poll, each count is
      how many of them chose that answer, and the counts add up to the total. */
  lemma TallyMatchesStore(body: Body, key: Key, now: int, dbNow: int, bucket: string,
                          db: Db, rs: seq<PollResponse>, vs: seq<VoteRow>)
    requires GetResults(body, key, now, dbNow, bucket, db, rs, vs).0.Success?
    requires var u := GetResults(body, key, now, dbNow, bucket, db, rs, vs).0.value.poll.uuid;
      IsVoteScan(GetResults(body, key, now, dbNow, bucket, db, rs, vs).1, u, vs)
    ensures var report := GetResults(body, key, now, dbNow, bucket, db, rs, vs).0.value;
      var stored := VotesOf(db.votes, report.poll.uuid);
      && report.count == |stored|
      && (report.Counted? ==>
            && SumValues(report.counts) == report.count
            && forall k :: k in report.counts ==> report.counts[k] == multiset(IdxColumn(stored))[k])
  {
    var report := GetResults(body, key, now, dbNow, bucket, db, rs, vs).0.value;
    var u := report.poll.uuid;
    var stored := VotesOf(db.votes, u);
    assert |vs| == |multiset(vs)| == |multiset(stored)| == |stored|;
    if report.Counted? {
      var ending := CheckEnd(ClaimsOf(body["endJwt"], key), now).value;
      var meta := db.meta[ending.uuid];
      CountsAddUp(u, meta, bucket, rs, vs);
      ColumnMultiset(vs, stored);
    }
  }

  /** The colour poll: two answers, "Red" at index 0 and "Blue" at index 1.
      A vote for "Blue" is admitted and a vote for "Red" is refused. */
  lemma ColourPoll(u: Uuid, now: int, key: Key, db: Db)
    ensures var body := map["question" := Str("Pick a color"), "freeResponse" := Bool(false),
                            "responses" := Arr([Str("Red"), Str("Blue")])];
      var created := CreatePoll(body, u, now, key, db).0;
      && created.Success?
      && AddVote(map["pollJwt" := Jwt(created.value.jwt), "responseIdx" := Num(1.0)], key, db).0
           == Success(VoteRow(u, Some(1), None))
      && AddVote(map["pollJwt" := Jwt(created.value.jwt), "responseIdx" := Num(0.0)], key, db).0
           == Failure(InvalidVote)
  {
    var body := map["question" := Str("Pick a color"), "freeResponse" := Bool(false),
                    "responses" := Arr([Str("Red"), Str("Blue")])];
    ColourBodyValid(body);
    var created := CreatePoll(body, u, now, key, db).0.value;
    IssuedTokenAdmission(body, u, now, key, db, 1);
    IssuedTokenAdmission(body, u, now, key, db, 0);
    IndexBodyParses(Jwt(created.jwt), 1);
    IndexBodyParses(Jwt(created.jwt), 0);
  }

  /** The colour poll's creation body passes validation as an indexed poll
      with its two answers. */
  lemma ColourBodyValid(body: Body)
    requires body == map["question" := Str("Pick a color"), "freeResponse" := Bool(false),
                         "responses" := Arr([Str("Red"), Str("Blue")])]
    ensures PollCreationValid(body)
    ensures !ParsePollCreation(body).value.freeResponse
    ensures |ParsePollCreation(body).value.responses.value| == 2
  {
    assert |"Pick a color"| == 12;
    assert !Blank("Pick a color") by { assert !IsSpace("Pick a color"[0]); }
    assert !Blank("Red") by { assert !IsSpace("Red"[0]); }
    assert !Blank("Blue") by { assert !IsSpace("Blue"[0]); }
  }

  /** A vote body carrying a token and a whole-number index, and nothing
      else, reads as an index vote. */
  lemma IndexBodyParses(token: Value, i: int)
    requires token.Jwt?
    ensures var body := map["pollJwt" := token, "responseIdx" := Num(i as real)];
      ParseVoteCreation(body) == Success(VoteCreation(token, None, Some(i)))
  {
    var body := map["pollJwt" := token, "responseIdx" := Num(i as real)];
    assert IsIntegral(i as real);
    assert VoteCreationValid(body);
  }
}

=== FILE: models.dfy ===
/** The record shapes exchanged with clients (src/models.ts), the payload
    encodings of the two tokens, and the request validation rules written out
    as predicates. */
module Models {
  import opened Wrappers
  import opened Tokens

  /** A JSON value as it arrives in a request body. Numbers are JavaScript
      numbers (`real` here); a signed token travels as an opaque string and is
      kept symbolic as `Jwt`. */
  datatype Value =
    | Null
    | Bool(b: bool)
    | Num(n: real)
    | Str(s: string)
    | Arr(items: seq<Value>)
    | Jwt(token: Token)

  /** A request body: field name to value. A missing key is an absent field,
      so `field in body` is JavaScript's `'field' in body`. */
  type Body = map<string, Value>

  /** The errors the handlers answer with (all are HTTP 400). */
  datatype Refusal =
    | ValidationFailed   // the body breaks a validation rule
    | InvalidJwt         // 'Invalid JWT': the voter token carries no uuid
    | InvalidVote        // 'Free response not allowed or invalid vote'
    | InvalidEndJwt      // endJwt 'Invalid': the close token was refused
    | NoSuchPoll         // uuid 'No poll with that UUID': missing or already ended

  /** The voter token's payload: the poll as the voter is shown it. */
  datatype PollJwt = PollJwt(uuid: Uuid, question: string, freeResponse: bool, responses: Option<seq<string>>)

  /** The close token's payload, held by the poll's creator. */
  datatype PollEndJwt = PollEndJwt(uuid: Uuid, started: int)

  /** A `poll_meta` row; `ended` is unset while the poll is open. */
  datatype PollMeta = PollMeta(uuid: Uuid, ended: Option<int>, question: string, freeResponse: bool)

  /** A `poll_responses` row: candidate answer number `idx` of poll `uuid`. */
  datatype PollResponse = PollResponse(uuid: Uuid, idx: int, response: string)

  /** A validated poll creation request; `responses` is present when the body had an array. */
  datatype PollCreation = PollCreation(question: string, freeResponse: bool, responses: Option<seq<string>>)

  /** A validated vote request. `pollJwt` is passed on to verification as it came. */
  datatype VoteCreation = VoteCreation(pollJwt: Value, customResponse: Option<string>, responseIdx: Option<int>)

  // ---------------------------------------------------------------------------
  // Token payloads

  /** The claims object signed into a voter token. */
  function PollClaims(p: PollJwt): (c: Claims)
    ensures PollJwtOf(c) == Some(p)
    ensures c.started.None?
  {
    Claims(Some(p.uuid), Some(p.question), Some(p.freeResponse), p.responses, None)
  }

  /** Reads a voter token payload back; the fields the interface requires must be present. */
  function PollJwtOf(c: Claims): Option<PollJwt>
  {
    if c.uuid.Some? && c.question.Some? && c.freeResponse.Some? then
      Some(PollJwt(c.uuid.value, c.question.value, c.freeResponse.value, c.responses))
    else
      None
  }

  /** The claims object signed into a close token. */
  function EndClaims(e: PollEndJwt): (c: Claims)
    ensures EndJwtOf(c) == Some(e)
    ensures c.freeResponse.None? && c.responses.None?
  {
    Claims(Some(e.uuid), None, None, None, Some(e.started))
  }

  /** The shape test the close handler makes: both `uuid` and `started` present. */
  function EndJwtOf(c: Claims): Option<PollEndJwt>
  {
    if c.uuid.Some? && c.started.Some? then Some(PollEndJwt(c.uuid.value, c.started.value)) else None
  }

  /** Verifies a body field as a token. Anything that is not a token signed
      with `key` yields the empty object, as the handlers' empty `catch` does. */
  function ClaimsOf(v: Value, key: Key): (c: Claims)
    ensures c != NoClaims ==> v == Jwt(Sign(c, key))
    ensures forall k: Claims :: v == Jwt(Sign(k, key)) ==> c == k
  {
    if v.Jwt? && Verify(v.token, key).Some? then Verify(v.token, key).value else NoClaims
  }

  // ---------------------------------------------------------------------------
  // Validation rules

  predicate IsSpace(ch: char) {
    ch == ' ' || ch == '\t' || ch == '\n' || ch == '\r'
  }

  predicate Blank(s: string) {
    forall i :: 0 <= i < |s| ==> IsSpace(s[i])
  }

  /** The `required` rule on a value that is present: not null, not a blank
      string, not an empty array. */
  predicate Filled(v: Value) {
    match v
    case Null => false
    case Str(s) => !Blank(s)
    case Arr(items) => |items| > 0
    case _ => true
  }

  /** The field passes `required`. Rules other than the `required*` family
      are applied to a field only when this holds. */
  predicate Given(body: Body, field: string) {
    field in body && Filled(body[field])
  }

  predicate IsIntegral(n: real) {
    n.Floor as real == n
  }

  /** The number of UTF-16 code units `c` takes: two for a character
      outside the Basic Multilingual Plane, one otherwise. */
  function CodeUnits(c: char): nat {
    if c as int > 0xFFFF then 2 else 1
  }

  /** JavaScript's `length` of a string, which is what the `min` and `max`
      rules measure: UTF-16 code units, not characters. */
  function Utf16Length(s: string): (n: nat)
    ensures |s| <= n <= 2 * |s|
  {
    if |s| == 0 then 0 else Utf16Length(s[..|s| - 1]) + CodeUnits(s[|s| - 1])
  }

  /** Text inside the Basic Multilingual Plane has one code unit per character. */
  lemma {:induction false} BasicPlaneLength(s: string)
    requires forall i :: 0 <= i < |s| ==> s[i] as int <= 0xFFFF
    ensures Utf16Length(s) == |s|
  {
    if |s| > 0 {
      BasicPlaneLength(s[..|s| - 1]);
    }
  }

  /** Text made only of characters outside the Basic Multilingual Plane
      (emoji, say) has two code units per character. */
  lemma {:induction false} AstralLength(s: string)
    requires forall i :: 0 <= i < |s| ==> s[i] as int > 0xFFFF
    ensures Utf16Length(s) == 2 * |s|
  {
    if |s| > 0 {
      AstralLength(s[..|s| - 1]);
    }
  }

  /** question: 'required|min:8|max:500' */
  predicate QuestionRule(body: Body) {
    Given(body, "question") && body["question"].Str? && 8 <= Utf16Length(body["question"].s) <= 500
  }

  /** freeResponse: 'required|boolean' */
  predicate FreeResponseRule(body: Body) {
    Given(body, "freeResponse") && body["freeResponse"].Bool?
  }

  /** responses: 'required_if:freeResponse,false|array' */
  predicate ResponsesRule(body: Body) {
    && ("freeResponse" in body && body["freeResponse"] == Bool(false) ==> Given(body, "responses"))
    && (Given(body, "responses") ==> body["responses"].Arr?)
  }

  /** 'responses.*': 'string|required|max:250', for one element. */
  predicate ResponseItemRule(v: Value) {
    Filled(v) && v.Str? && Utf16Length(v.s) <= 250
  }

  predicate ResponseItemsRule(body: Body) {
    "responses" in body && body["responses"].Arr? ==>
      forall i :: 0 <= i < |body["responses"].items| ==> ResponseItemRule(body["responses"].items[i])
  }

  /** pollCreationValidationRules */
  predicate PollCreationValid(body: Body) {
    QuestionRule(body) && FreeResponseRule(body) && ResponsesRule(body) && ResponseItemsRule(body)
  }

  /** customResponse: 'required_without:responseIdx|max:250'. A present
      value must be a filled string. */
  predicate CustomResponseRule(body: Body) {
    && (!Given(body, "responseIdx") ==> Given(body, "customResponse"))
    && ("customResponse" in body ==>
          Given(body, "customResponse") && body["customResponse"].Str? && Utf16Length(body["customResponse"].s) <= 250)
  }

  /** responseIdx: 'required_without:customResponse|integer'. A present
      value must be an integral number. */
  predicate ResponseIdxRule(body: Body) {
    && (!Given(body, "customResponse") ==> Given(body, "responseIdx"))
    && ("responseIdx" in body ==>
          body["responseIdx"].Num? && IsIntegral(body["responseIdx"].n))
  }

  /** voteCreationValidationRules */
  predicate VoteCreationValid(body: Body) {
    Given(body, "pollJwt") && CustomResponseRule(body) && ResponseIdxRule(body)
  }

  // ---------------------------------------------------------------------------
  // Typed views of valid bodies

  function Strings(items: seq<Value>): (r: seq<string>)
    requires forall i :: 0 <= i < |items| ==> items[i].Str?
    ensures |r| == |items| && forall i :: 0 <= i < |items| ==> items[i] == Str(r[i])
  {
    seq(|items|, i requires 0 <= i < |items| => items[i].s)
  }

  /** Validates a poll creation body and reads it as a `PollCreation`. */
  function ParsePollCreation(body: Body): (r: Result<PollCreation, Refusal>)
    ensures r.Success? <==> PollCreationValid(body)
    ensures r.Failure? ==> r.error == ValidationFailed
    ensures r.Success? ==>
      && body["question"] == Str(r.value.question)
      && 8 <= Utf16Length(r.value.question) <= 500
      && body["freeResponse"] == Bool(r.value.freeResponse)
      && (!r.value.freeResponse ==> r.value.responses.Some? && |r.value.responses.value| > 0)
      && (r.value.responses.Some? ==>
            && "responses" in body && body["responses"].Arr?
            && |body["responses"].items| == |r.value.responses.value|
            && forall i :: 0 <= i < |r.value.responses.value| ==>
                 && body["responses"].items[i] == Str(r.value.responses.value[i])
                 && Utf16Length(r.value.responses.value[i]) <= 250 && !Blank(r.value.responses.value[i]))
  {
    if !PollCreationValid(body) then Failure(ValidationFailed)
    else
      var responses :=
        if "responses" in body && body["responses"].Arr? then Some(Strings(body["responses"].items)) else None;
      Success(PollCreation(body["question"].s, body["freeResponse"].b, responses))
  }

  /** Validates a vote body and reads it as a `VoteCreation`: a field is
      present in the result exactly when its key is in the body. */
  function ParseVoteCreation(body: Body): (r: Result<VoteCreation, Refusal>)
    ensures r.Success? <==> VoteCreationValid(body)
    ensures r.Failure? ==> r.error == ValidationFailed
    ensures r.Success? ==>
      && r.value.pollJwt == body["pollJwt"]
      && (r.value.customResponse.Some? <==> "customResponse" in body)
      && (r.value.responseIdx.Some? <==> "responseIdx" in body)
      && (r.value.customResponse.Some? || r.value.responseIdx.Some?)
      && (r.value.customResponse.Some? ==>
            body["customResponse"] == Str(r.value.customResponse.value)
            && Utf16Length(r.value.customResponse.value) <= 250 && !Blank(r.value.customResponse.value))
      && (r.value.responseIdx.Some? ==> body["responseIdx"] == Num(r.value.responseIdx.value as real))
  {
    if !VoteCreationValid(body) then Failure(ValidationFailed)
    else
      var custom := if "customResponse" in body then Some(body["customResponse"].s) else None;
      var idx := if "responseIdx" in body then Some(body["responseIdx"].n.Floor) else None;
      Success(VoteCreation(body["pollJwt"], custom, idx))
  }

  /** Lengths are JavaScript lengths: four emoji make an eight-unit question,
      long enough for `min:8`. */
  lemma EmojiQuestionAdmitted()
    ensures var q := "\U{1F600}\U{1F600}\U{1F600}\U{1F600}";
      PollCreationValid(map["question" := Str(q), "freeResponse" := Bool(true)])
  {
    var q := "\U{1F600}\U{1F600}\U{1F600}\U{1F600}";
    AstralLength(q);
    assert !IsSpace(q[0]);
  }

  /** ... and 200 emoji make a 400-unit answer, over `max:250`. */
  lemma LongEmojiAnswerRefused()
    ensures !ResponseItemRule(Str(seq(200, _ => '\U{1F600}')))
  {
    AstralLength(seq(200, _ => '\U{1F600}'));
  }
}

=== FILE: poll.dfy ===
/** Poll creation (`createPoll` in src/poll.ts): the meta row and answer rows
    a new poll gets, the batch that stores them, and the voter and close
    tokens handed back. */
module Poll {
  import opened Wrappers
  import opened Tokens
  import opened Models
  import opened Store
  import opened Aggregate

  // ---------------------------------------------------------------------------
  // Creation

  /** The candidate-answer rows of a new poll: none for a free-response poll,
      otherwise one per answer, numbered from 0. */
  function ResponseRows(pc: PollCreation, u: Uuid): (rows: seq<PollResponse>)
    ensures pc.freeResponse ==> rows == []
    ensures !pc.freeResponse ==> |rows| == |pc.responses.GetOr([])|
    ensures forall row :: row in rows ==>
      && row.uuid == u
      && 0 <= row.idx < |pc.responses.GetOr([])|
      && row.response == pc.responses.GetOr([])[row.idx]
    ensures !pc.freeResponse ==> forall i :: 0 <= i < |rows| ==> rows[i].idx == i
  {
    if pc.freeResponse then []
    else
      var answers := pc.responses.GetOr([]);
      seq(|answers|, i requires 0 <= i < |answers| => PollResponse(u, i, answers[i]))
  }

  /** The single batch that stores a poll: its meta row first, then one insert
      per candidate-answer row, in order. */
  function CreationBatch(meta: PollMeta, rows: seq<PollResponse>): (batch: seq<Statement>)
    ensures |batch| == 1 + |rows|
    ensures batch[0] == InsertMeta(meta.uuid, meta.question, meta.freeResponse)
    ensures forall i :: 0 <= i < |rows| ==> batch[i + 1] == InsertResponse(rows[i])
  {
    [InsertMeta(meta.uuid, meta.question, meta.freeResponse)] + Inserts(rows)
  }

  /** The voter token payload: the poll as stored, plus its answers when it
      is an indexed poll. */
  function VoterPayload(meta: PollMeta, pc: PollCreation): (p: PollJwt)
    ensures p.uuid == meta.uuid && p.question == meta.question
    ensures p.freeResponse == pc.freeResponse
    ensures p.responses.Some? <==> !pc.freeResponse
    ensures p.responses.Some? ==> p.responses.value == pc.responses.GetOr([])
  {
    PollJwt(meta.uuid, meta.question, pc.freeResponse,
            if !pc.freeResponse then Some(pc.responses.GetOr([])) else None)
  }

  /** The tokens and payload handed back to the poll's creator. */
  datatype Created = Created(jwt: Token, payload: PollJwt, endJwt: Token)

  /** The creation handler. `u` is the freshly generated poll id and `now`
      the clock reading stamped into the close token. */
  function CreatePoll(body: Body, u: Uuid, now: int, key: Key, db: Db): (out: (Result<Created, Refusal>, Db))
    ensures out.0.Failure? <==> !PollCreationValid(body)
    ensures out.0.Failure? ==> out.0.error == ValidationFailed && out.1 == db
    ensures out.0.Success? ==>
      && out.0.value.payload.uuid == u
      && ClaimsOf(Jwt(out.0.value.jwt), key) == PollClaims(out.0.value.payload)
      && EndJwtOf(ClaimsOf(Jwt(out.0.value.endJwt), key)) == Some(PollEndJwt(u, now))
      && ClaimsOf(Jwt(out.0.value.endJwt), key) == EndClaims(PollEndJwt(u, now))
    ensures out.0.Success? ==>
      var pc := ParsePollCreation(body).value;
      out.0.value.payload == VoterPayload(PollMeta(u, None, pc.question, pc.freeResponse), pc)
  {
    match ParsePollCreation(body)
    case Failure(e) => (Failure(e), db)
    case Success(pc) =>
      var meta := PollMeta(u, None, pc.question, pc.freeResponse);
      var rows := ResponseRows(pc, u);
      var db' := ExecuteBatch(db, CreationBatch(meta, rows));
      var payload := VoterPayload(meta, pc);
      var endPayload := PollEndJwt(u, now);
      (Success(Created(Sign(PollClaims(payload), key), payload, Sign(EndClaims(endPayload), key))), db')
  }

  /** One insert per candidate-answer row, in order. */
  function Inserts(rows: seq<PollResponse>): (batch: seq<Statement>)
    ensures |batch| == |rows|
    ensures forall i :: 0 <= i < |rows| ==> batch[i] == InsertResponse(rows[i])
  {
    seq(|rows|, i requires 0 <= i < |rows| => InsertResponse(rows[i]))
  }

  /** No two rows share a (uuid, idx) key. */
  predicate DistinctKeys(rows: seq<PollResponse>) {
    forall i, j :: 0 <= i < |rows| && 0 <= j < |rows| && rows[i].uuid == rows[j].uuid && rows[i].idx == rows[j].idx ==> i == j
  }

  /** No row has key `key`. */
  predicate Unkeyed(rows: seq<PollResponse>, key: (Uuid, int)) {
    forall i :: 0 <= i < |rows| ==> (rows[i].uuid, rows[i].idx) != key
  }

  lemma InsertsTail(rows: seq<PollResponse>)
    requires |rows| > 0
    ensures Inserts(rows)[0] == InsertResponse(rows[0])
    ensures Inserts(rows)[1..] == Inserts(rows[1..])
  {
  }

  /** The response table after writing `rows` into `t`, one after another. */
  function Stored(t: map<(Uuid, int), string>, rows: seq<PollResponse>): map<(Uuid, int), string>
    decreases |rows|
  {
    if |rows| == 0 then t else Stored(t[(rows[0].uuid, rows[0].idx) := rows[0].response], rows[1..])
  }

  /** Response inserts touch only the response table, and write the rows
      into it in order. */
  lemma {:induction false} InsertsStore(db: Db, rows: seq<PollResponse>)
    ensures ExecuteBatch(db, Inserts(rows)) == db.(responses := Stored(db.responses, rows))
    decreases |rows|
  {
    if |rows| > 0 {
      InsertsTail(rows);
      InsertsStore(Execute(db, InsertResponse(rows[0])), rows[1..]);
    }
  }

  /** A key already present stays present, and keeps its value unless a row
      writes it. */
  lemma {:induction false} StoredKeeps(t: map<(Uuid, int), string>, rows: seq<PollResponse>, key: (Uuid, int))
    requires key in t
    ensures key in Stored(t, rows)
    ensures Unkeyed(rows, key) ==> Stored(t, rows)[key] == t[key]
    decreases |rows|
  {
    if |rows| > 0 {
      var t1 := t[(rows[0].uuid, rows[0].idx) := rows[0].response];
      StoredKeeps(t1, rows[1..], key);
      if Unkeyed(rows, key) {
        assert (rows[0].uuid, rows[0].idx) != key;
        assert Unkeyed(rows[1..], key) by {
          forall j | 0 <= j < |rows[1..]| ensures (rows[1..][j].uuid, rows[1..][j].idx) != key {
            assert rows[1..][j] == rows[j + 1];
          }
        }
      }
    }
  }

  /** Every key the writes add is the key of some row. */
  lemma {:induction false} StoredNew(t: map<(Uuid, int), string>, rows: seq<PollResponse>, key: (Uuid, int))
    requires key in Stored(t, rows) && key !in t
    ensures exists i :: 0 <= i < |rows| && key == (rows[i].uuid, rows[i].idx)
    decreases |rows|
  {
    if |rows| > 0 {
      var t1 := t[(rows[0].uuid, rows[0].idx) := rows[0].response];
      if key != (rows[0].uuid, rows[0].idx) {
        StoredNew(t1, rows[1..], key);
        var j :| 0 <= j < |rows[1..]| && key == (rows[1..][j].uuid, rows[1..][j].idx);
        assert rows[1..][j] == rows[j + 1];
      }
    }
  }

  /** With distinct keys, every row's answer ends up under its key. */
  lemma {:induction false} StoredRow(t: map<(Uuid, int), string>, rows: seq<PollResponse>, i: int)
    requires DistinctKeys(rows) && 0 <= i < |rows|
    ensures (rows[i].uuid, rows[i].idx) in Stored(t, rows)
    ensures Stored(t, rows)[(rows[i].uuid, rows[i].idx)] == rows[i].response
    decreases |rows|
  {
    var t1 := t[(rows[0].uuid, rows[0].idx) := rows[0].response];
    var tail := rows[1..];
    if i == 0 {
      assert Unkeyed(tail, (rows[0].uuid, rows[0].idx)) by {
        forall j | 0 <= j < |tail| ensures (tail[j].uuid, tail[j].idx) != (rows[0].uuid, rows[0].idx) {
          assert tail[j] == rows[j + 1];
        }
      }
      StoredKeeps(t1, tail, (rows[0].uuid, rows[0].idx));
    } else {
      assert DistinctKeys(tail) by {
        forall a, b | 0 <= a < |tail| && 0 <= b < |tail| && tail[a].uuid == tail[b].uuid && tail[a].idx == tail[b].idx
          ensures a == b
        {
          assert rows[a + 1] == tail[a] && rows[b + 1] == tail[b];
        }
      }
      assert tail[i - 1] == rows[i];
      StoredRow(t1, tail, i - 1);
    }
  }

  /** After the writes the table holds each row's answer under its key, adds
      no other key, and every key no row names keeps its old value. */
  lemma StoredRows(t: map<(Uuid, int), string>, rows: seq<PollResponse>)
    requires DistinctKeys(rows)
    ensures var t' := Stored(t, rows);
      && (forall i :: 0 <= i < |rows| ==> (rows[i].uuid, rows[i].idx) in t' && t'[(rows[i].uuid, rows[i].idx)] == rows[i].response)
      && (forall key :: key in t' && key !in t ==> exists i :: 0 <= i < |rows| && key == (rows[i].uuid, rows[i].idx))
      && (forall key :: key in t ==> key in t')
      && (forall key :: key in t && Unkeyed(rows, key) ==> t'[key] == t[key])
  {
    forall i | 0 <= i < |rows|
      ensures (rows[i].uuid, rows[i].idx) in Stored(t, rows)
      ensures Stored(t, rows)[(rows[i].uuid, rows[i].idx)] == rows[i].response
    {
      StoredRow(t, rows, i);
    }
    forall key | key in Stored(t, rows) && key !in t
      ensures exists i :: 0 <= i < |rows| && key == (rows[i].uuid, rows[i].idx)
    {
      StoredNew(t, rows, key);
    }
    forall key | key in t
      ensures key in Stored(t, rows)
      ensures Unkeyed(rows, key) ==> Stored(t, rows)[key] == t[key]
    {
      StoredKeeps(t, rows, key);
    }
  }

  /** The creation batch is the meta upsert, which keeps any earlier `ended`,
      followed by the answer rows written into the response table in order;
      the votes are untouched. */
  lemma CreationBatchEffect(db: Db, meta: PollMeta, rows: seq<PollResponse>)
    ensures ExecuteBatch(db, CreationBatch(meta, rows))
         == Db(db.meta[meta.uuid := PollMeta(meta.uuid, if meta.uuid in db.meta then db.meta[meta.uuid].ended else None,
                                             meta.question, meta.freeResponse)],
               Stored(db.responses, rows),
               db.votes)
  {
    var batch := CreationBatch(meta, rows);
    var db1 := Execute(db, batch[0]);
    InsertsStore(db1, rows);
  }

  /** A poll's answer rows have distinct keys. */
  lemma ResponseRowsDistinct(pc: PollCreation, u: Uuid)
    ensures DistinctKeys(ResponseRows(pc, u))
  {
  }

  /** What a successful creation does to the tables, in terms of the parsed
      request: the batch's effect, with `rows` the poll's answer rows. */
  lemma CreatePollEffect(body: Body, u: Uuid, now: int, key: Key, db: Db)
    requires CreatePoll(body, u, now, key, db).0.Success?
    ensures var pc := ParsePollCreation(body).value;
      var rows := ResponseRows(pc, u);
      var db' := CreatePoll(body, u, now, key, db).1;
      && db'.meta == db.meta[u := PollMeta(u, if u in db.meta then db.meta[u].ended else None,
                                           pc.question, pc.freeResponse)]
      && db'.votes == db.votes
      && (forall i :: 0 <= i < |rows| ==>
            (u, rows[i].idx) in db'.responses && db'.responses[(u, rows[i].idx)] == rows[i].response)
      && (forall k :: k in db'.responses && k !in db.responses ==>
            exists i :: 0 <= i < |rows| && k == (u, rows[i].idx))
      && (forall k :: k in db.responses ==> k in db'.responses)
      && (forall k :: k in db.responses && k.0 != u ==> db'.responses[k] == db.responses[k])
  {
    var pc := ParsePollCreation(body).value;
    CreatePollRunsBatch(body, u, now, key, db);
    CreationBatchEffect(db, PollMeta(u, None, pc.question, pc.freeResponse), ResponseRows(pc, u));
    TablesAfterCreation(db, u, pc, CreatePoll(body, u, now, key, db).1);
  }

  /** The creation effect on the tables, for any parsed request. */
  lemma TablesAfterCreation(db: Db, u: Uuid, pc: PollCreation, db': Db)
    requires db' == Db(db.meta[u := PollMeta(u, if u in db.meta then db.meta[u].ended else None, pc.question, pc.freeResponse)],
                       Stored(db.responses, ResponseRows(pc, u)),
                       db.votes)
    ensures var rows := ResponseRows(pc, u);
      && (forall i :: 0 <= i < |rows| ==>
            (u, rows[i].idx) in db'.responses && db'.responses[(u, rows[i].idx)] == rows[i].response)
      && (forall k :: k in db'.responses && k !in db.responses ==>
            exists i :: 0 <= i < |rows| && k == (u, rows[i].idx))
      && (forall k :: k in db.responses ==> k in db'.responses)
      && (forall k :: k in db.responses && k.0 != u ==> db'.responses[k] == db.responses[k])
  {
    var rows := ResponseRows(pc, u);
    ResponseRowsDistinct(pc, u);
    StoredRows(db.responses, rows);
    forall k | k in db.responses && k.0 != u
      ensures Unkeyed(rows, k)
    {
    }
  }

  /** A successful creation runs the batch built from the parsed request. */
  lemma CreatePollRunsBatch(body: Body, u: Uuid, now: int, key: Key, db: Db)
    requires CreatePoll(body, u, now, key, db).0.Success?
    ensures var pc := ParsePollCreation(body).value;
      CreatePoll(body, u, now, key, db).1
        == ExecuteBatch(db, CreationBatch(PollMeta(u, None, pc.question, pc.freeResponse), ResponseRows(pc, u)))
  {
  }
}

=== FILE: results.dfy ===
/** Closing a poll and tallying its votes (the `getResults` handler). */
module Results {
  import opened Wrappers
  import opened Tokens
  import opened Models
  import opened Store
  import opened Aggregate

  /** The close token check: the payload must carry `uuid` and `started`,
      and `started` must lie strictly before `now`. */
  function CheckEnd(c: Claims, now: int): (r: Result<PollEndJwt, Refusal>)
    ensures r.Success? ==> EndJwtOf(c) == Some(r.value) && r.value.started < now
    ensures r.Failure? ==> r.error == InvalidEndJwt
  {
    match EndJwtOf(c)
    case None => Failure(InvalidEndJwt)
    case Some(ending) => if ending.started >= now then Failure(InvalidEndJwt) else Success(ending)
  }

  /** The close gate: exactly one meta row for the id, with `ended` unset. */
  function OpenPoll(db: Db, u: Uuid): (r: Result<PollMeta, Refusal>)
    ensures r.Success? <==> StateOf(db, u) == Open
    ensures r.Success? ==> r.value == db.meta[u]
    ensures r.Failure? ==> r.error == NoSuchPoll
  {
    if u in db.meta && db.meta[u].ended.None? then Success(db.meta[u]) else Failure(NoSuchPoll)
  }

  /** The poll as reported back; `responses` is the rebuilt (possibly holed)
      array for an indexed poll and absent for a free-response poll. */
  datatype PollView = PollView(uuid: Uuid, question: string, freeResponse: bool, responses: Option<Sparse>)

  datatype Report =
    | Counted(poll: PollView, count: nat, counts: map<Option<int>, nat>)
    | Exported(poll: PollView, count: nat, url: string, lines: seq<string>)

  /** The `response_idx` column of scanned vote rows. */
  function IdxColumn(scan: seq<VoteRow>): (r: seq<Option<int>>)
    ensures |r| == |scan| && forall i :: 0 <= i < |scan| ==> r[i] == scan[i].responseIdx
  {
    seq(|scan|, i requires 0 <= i < |scan| => scan[i].responseIdx)
  }

  /** The `custom_response` column of scanned vote rows. */
  function TextColumn(scan: seq<VoteRow>): (r: seq<Option<string>>)
    ensures |r| == |scan| && forall i :: 0 <= i < |scan| ==> r[i] == scan[i].customResponse
  {
    seq(|scan|, i requires 0 <= i < |scan| => scan[i].customResponse)
  }

  /** The report for an open poll, from the scans the driver delivered. */
  function Tabulate(u: Uuid, meta: PollMeta, bucket: string,
                    responseScan: seq<PollResponse>, voteScan: seq<VoteRow>): (r: Report)
    ensures r.poll.uuid == u && r.poll.question == meta.question && r.poll.freeResponse == meta.freeResponse
    ensures r.Counted? <==> !meta.freeResponse
    ensures r.count == |voteScan|
    ensures r.Counted? ==> r.poll.responses == Some(Rebuild(responseScan)) && r.counts == TallyOf(IdxColumn(voteScan)).counts
    ensures r.Exported? ==>
      && r.poll.responses.None?
      && r.lines == ExportLines(TextColumn(voteScan)) && |r.lines| == r.count
      && r.url == ExportUrl(bucket, u)
  {
    if !meta.freeResponse then
      var t := TallyOf(IdxColumn(voteScan));
      Counted(PollView(u, meta.question, false, Some(Rebuild(responseScan))), t.count, t.counts)
    else
      var lines := ExportLines(TextColumn(voteScan));
      Exported(PollView(u, meta.question, true, None), |voteScan|, ExportUrl(bucket, u), lines)
  }

  /** The close handler. `now` is the server clock, `dbNow` the database's
      `now()` written into `ended`, `bucket` the export bucket's name, and the
      two scans are the rows the driver delivers after the close. */
  function GetResults(body: Body, key: Key, now: int, dbNow: int, bucket: string, db: Db,
                      responseScan: seq<PollResponse>, voteScan: seq<VoteRow>): (out: (Result<Report, Refusal>, Db))
    ensures out.0.Failure? ==> out.1 == db
    ensures !Given(body, "endJwt") ==> out.0 == Failure(ValidationFailed)
    ensures out.0.Success? ==>
      var u := out.0.value.poll.uuid;
      && StateOf(db, u) == Open
      && out.1 == MarkEnded(db, u, dbNow)
      && StateOf(out.1, u) == Closed
    ensures out.0.Success? <==>
      && Given(body, "endJwt")
      && CheckEnd(ClaimsOf(body["endJwt"], key), now).Success?
      && StateOf(db, CheckEnd(ClaimsOf(body["endJwt"], key), now).value.uuid) == Open
    ensures Given(body, "endJwt") && CheckEnd(ClaimsOf(body["endJwt"], key), now).Success? ==>
      var u := CheckEnd(ClaimsOf(body["endJwt"], key), now).value.uuid;
      StateOf(db, u) == Open ==>
        out == (Success(Tabulate(u, db.meta[u], bucket, responseScan, voteScan)), MarkEnded(db, u, dbNow))
  {
    if !Given(body, "endJwt") then (Failure(ValidationFailed), db)
    else
      match CheckEnd(ClaimsOf(body["endJwt"], key), now)
      case Failure(e) => (Failure(e), db)
      case Success(ending) =>
        match OpenPoll(db, ending.uuid)
        case Failure(e) => (Failure(e), db)
        case Success(meta) =>
          (Success(Tabulate(ending.uuid, meta, bucket, responseScan, voteScan)), MarkEnded(db, ending.uuid, dbNow))
  }

  // ---------------------------------------------------------------------------
  // Properties of the close flow

  /** A refused close token is answered before the database is touched: the
      answer is the same for every database and none is changed. */
  lemma RefusedCloseTokenReadsNothing(body: Body, key: Key, now: int, dbNow: int, bucket: string,
                                      db1: Db, db2: Db, rs: seq<PollResponse>, vs: seq<VoteRow>)
    requires Given(body, "endJwt")
    requires CheckEnd(ClaimsOf(body["endJwt"], key), now).Failure?
    ensures GetResults(body, key, now, dbNow, bucket, db1, rs, vs) == (Failure(InvalidEndJwt), db1)
    ensures GetResults(body, key, now, dbNow, bucket, db2, rs, vs) == (Failure(InvalidEndJwt), db2)
  {
  }

  /** The close token's time check: a token stamped at `started` is accepted
      from the next instant on, never before or at `started`. */
  lemma CloseTokenTimeCheck(e: PollEndJwt, now: int)
    ensures CheckEnd(EndClaims(e), now).Success? <==> e.started < now
    ensures CheckEnd(EndClaims(e), now).Success? ==> CheckEnd(EndClaims(e), now).value == e
  {
  }

  /** A voter token carries no `started`, so it can never close a poll. */
  lemma VoterTokenCannotClose(p: PollJwt, now: int)
    ensures CheckEnd(PollClaims(p), now) == Failure(InvalidEndJwt)
  {
  }

  /** Closed is terminal for the close flow: once a poll is closed, every
      further close request for it is refused and changes nothing. */
  lemma ClosedPollRefused(body: Body, key: Key, now: int, dbNow: int, bucket: string,
                          db: Db, rs: seq<PollResponse>, vs: seq<VoteRow>)
    requires Given(body, "endJwt")
    requires CheckEnd(ClaimsOf(body["endJwt"], key), now).Success?
    requires StateOf(db, CheckEnd(ClaimsOf(body["endJwt"], key), now).value.uuid) != Open
    ensures GetResults(body, key, now, dbNow, bucket, db, rs, vs) == (Failure(NoSuchPoll), db)
  {
  }

  /** The same close request succeeds at most once in a row: replayed on the
      database the first call left behind, it is refused. */
  lemma SecondCloseRefused(body: Body, key: Key, now: int, now2: int, dbNow: int, dbNow2: int, bucket: string,
                           db: Db, rs: seq<PollResponse>, vs: seq<VoteRow>, rs2: seq<PollResponse>, vs2: seq<VoteRow>)
    requires GetResults(body, key, now, dbNow, bucket, db, rs, vs).0.Success?
    requires now <= now2
    ensures var db' := GetResults(body, key, now, dbNow, bucket, db, rs, vs).1;
      GetResults(body, key, now2, dbNow2, bucket, db', rs2, vs2) == (Failure(NoSuchPoll), db')
  {
    var db' := GetResults(body, key, now, dbNow, bucket, db, rs, vs).1;
    var ending := CheckEnd(ClaimsOf(body["endJwt"], key), now).value;
    assert CheckEnd(ClaimsOf(body["endJwt"], key), now2) == Success(ending);
    ClosedPollRefused(body, key, now2, dbNow2, bucket, db', rs2, vs2);
  }

  /** Closing changes nothing but the poll's `ended`: other polls keep their
      state and the answer and vote tables are untouched. */
  lemma CloseTouchesOnlyThePoll(body: Body, key: Key, now: int, dbNow: int, bucket: string,
                                db: Db, rs: seq<PollResponse>, vs: seq<VoteRow>, other: Uuid)
    requires GetResults(body, key, now, dbNow, bucket, db, rs, vs).0.Success?
    requires other != GetResults(body, key, now, dbNow, bucket, db, rs, vs).0.value.poll.uuid
    ensures var db' := GetResults(body, key, now, dbNow, bucket, db, rs, vs).1;
      && StateOf(db', other) == StateOf(db, other)
      && db'.responses == db.responses && db'.votes == db.votes
  {
  }

  /** For an indexed poll the per-answer counts add up to the total, which is
      the number of vote rows scanned, and each count is how often its
      answer was scanned. */
  lemma CountsAddUp(u: Uuid, meta: PollMeta, bucket: string, rs: seq<PollResponse>, vs: seq<VoteRow>)
    requires !meta.freeResponse
    ensures var r := Tabulate(u, meta, bucket, rs, vs);
      && SumValues(r.counts) == r.count == |vs|
      && forall k :: k in r.counts ==> r.counts[k] == multiset(IdxColumn(vs))[k]
  {
    TallySum(IdxColumn(vs));
  }

  /** For a free-response poll the export has one line per scanned vote, and
      when no answer holds a line break the object's line count is `count`. */
  lemma ExportMatchesCount(u: Uuid, meta: PollMeta, bucket: string, rs: seq<PollResponse>, vs: seq<VoteRow>)
    requires meta.freeResponse
    requires forall i :: 0 <= i < |vs| && vs[i].customResponse.Some? ==> '\n' !in vs[i].customResponse.value
    ensures var r := Tabulate(u, meta, bucket, rs, vs);
      && |r.lines| == r.count
      && NewlineCount(Content(r.lines)) == r.count
      && forall i :: 0 <= i < |vs| ==> r.lines[i] == Text(vs[i].customResponse) + "\n"
  {
    ExportLineCount(TextColumn(vs));
  }

  /** The report does not depend on the order the driver delivers rows in:
      two scans with the same vote rows and the same (consistent) answer
      rows give the same report. */
  lemma ReportOrderFree(u: Uuid, meta: PollMeta, bucket: string,
                        rs1: seq<PollResponse>, vs1: seq<VoteRow>, rs2: seq<PollResponse>, vs2: seq<VoteRow>)
    requires !meta.freeResponse
    requires Consistent(rs1) && (forall row :: row in rs1 <==> row in rs2)
    requires multiset(vs1) == multiset(vs2)
    ensures Tabulate(u, meta, bucket, rs1, vs1) == Tabulate(u, meta, bucket, rs2, vs2)
  {
    RebuildOrderFree(rs1, rs2);
    ColumnMultiset(vs1, vs2);
    TallyOrderFree(IdxColumn(vs1), IdxColumn(vs2));
  }

  lemma ColumnAppend(a: seq<VoteRow>, b: seq<VoteRow>)
    ensures IdxColumn(a + b) == IdxColumn(a) + IdxColumn(b)
  {
  }

  lemma {:induction false} ColumnMultiset(a: seq<VoteRow>, b: seq<VoteRow>)
    requires multiset(a) == multiset(b)
    ensures multiset(IdxColumn(a)) == multiset(IdxColumn(b))
    decreases |a|
  {
    if |a| > 0 {
      var x := a[0];
      assert x in multiset(b);
      var j :| 0 <= j < |b| && b[j] == x;
      var b1, b2 := b[..j], b[j + 1..];
      assert b == b1 + [x] + b2;
      assert a == [x] + a[1..];
      assert multiset(a[1..]) == multiset(b1 + b2) by {
        assert multiset(a[1..]) == multiset(a) - multiset{x};
        assert multiset(b1 + b2) == multiset(b) - multiset{x};
      }
      ColumnMultiset(a[1..], b1 + b2);
      ColumnAppend([x], a[1..]);
      ColumnAppend(b1 + [x], b2);
      ColumnAppend(b1, [x]);
      ColumnAppend(b1, b2);
    }
  }
}

=== FILE: store.dfy ===
/** The three tables the service uses, the statements it issues against
    them, and the open/closed state of a poll read off the tables. */
module Store {
  import opened Wrappers
  import opened Tokens
  import opened Models

  /** A `vote` row. The row's own key is generated by the database and never
      read back, so it is not kept. Exactly one of the two answer columns is
      written by the service; the other reads back as `null`. */
  datatype VoteRow = VoteRow(pollUuid: Uuid, responseIdx: Option<int>, customResponse: Option<string>)

  /** The statements of the creation batch. */
  datatype Statement =
    | InsertMeta(uuid: Uuid, question: string, freeResponse: bool)
    | InsertResponse(row: PollResponse)

  /** The database: `poll_meta` keyed by uuid, `poll_responses` keyed by
      (uuid, idx), and the `vote` rows in insertion order. */
  datatype Db = Db(
    meta: map<Uuid, PollMeta>,
    responses: map<(Uuid, int), string>,
    votes: seq<VoteRow>)

  /** Runs one statement. An INSERT writes only the columns it names, so a
      meta insert over an existing row keeps that row's `ended`. */
  function Execute(db: Db, st: Statement): (r: Db)
    ensures r.votes == db.votes
    ensures st.InsertMeta? ==>
      && r.responses == db.responses
      && r.meta.Keys == db.meta.Keys + {st.uuid}
      && r.meta[st.uuid].uuid == st.uuid
      && r.meta[st.uuid].question == st.question && r.meta[st.uuid].freeResponse == st.freeResponse
      && (st.uuid in db.meta ==> r.meta[st.uuid].ended == db.meta[st.uuid].ended)
      && (st.uuid !in db.meta ==> r.meta[st.uuid].ended.None?)
      && (forall v :: v in db.meta && v != st.uuid ==> r.meta[v] == db.meta[v])
    ensures st.InsertResponse? ==>
      var key := (st.row.uuid, st.row.idx);
      && r.meta == db.meta
      && r.responses.Keys == db.responses.Keys + {key}
      && r.responses[key] == st.row.response
      && (forall k :: k in db.responses && k != key ==> r.responses[k] == db.responses[k])
  {
    match st
    case InsertMeta(u, q, f) =>
      var ended := if u in db.meta then db.meta[u].ended else None;
      db.(meta := db.meta[u := PollMeta(u, ended, q, f)])
    case InsertResponse(row) =>
      db.(responses := db.responses[(row.uuid, row.idx) := row.response])
  }

  /** Runs a batch as one unit, statements in order. */
  function ExecuteBatch(db: Db, batch: seq<Statement>): Db
    decreases |batch|
  {
    if |batch| == 0 then db else ExecuteBatch(Execute(db, batch[0]), batch[1..])
  }

  /** `INSERT INTO vote ...`: one new row at the end, the poll tables untouched. */
  function InsertVote(db: Db, row: VoteRow): (r: Db)
    ensures |r.votes| == |db.votes| + 1 && r.votes[|db.votes|] == row
    ensures r.votes[..|db.votes|] == db.votes
    ensures r.meta == db.meta && r.responses == db.responses
  {
    db.(votes := db.votes + [row])
  }

  /** `UPDATE poll_meta SET ended = ... WHERE uuid = ?` on an existing row. */
  function MarkEnded(db: Db, u: Uuid, at: int): (r: Db)
    requires u in db.meta
    ensures r.meta.Keys == db.meta.Keys
    ensures r.meta[u] == db.meta[u].(ended := Some(at))
    ensures forall v :: v in db.meta && v != u ==> r.meta[v] == db.meta[v]
    ensures r.responses == db.responses && r.votes == db.votes
  {
    db.(meta := db.meta[u := db.meta[u].(ended := Some(at))])
  }

  // ---------------------------------------------------------------------------
  // Poll state

  datatype PollState = Missing | Open | Closed

  /** A poll is open while its meta row exists with `ended` unset, and
      closed once `ended` is set. */
  function StateOf(db: Db, u: Uuid): PollState
  {
    if u !in db.meta then Missing
    else if db.meta[u].ended.None? then Open
    else Closed
  }

  /** Every meta row is stored under its own uuid, and every response row
      belongs to a poll with a meta row. */
  predicate WellFormed(db: Db) {
    && (forall u :: u in db.meta ==> db.meta[u].uuid == u)
    && (forall key :: key in db.responses ==> key.0 in db.meta)
  }

  // ---------------------------------------------------------------------------
  // Scans

  /** The vote rows of poll `u`, in insertion order. */
  function VotesOf(votes: seq<VoteRow>, u: Uuid): (r: seq<VoteRow>)
    ensures forall row :: row in r <==> row in votes && row.pollUuid == u
    ensures |r| <= |votes|
  {
    if |votes| == 0 then []
    else
      var rest := VotesOf(votes[..|votes| - 1], u);
      var last := votes[|votes| - 1];
      assert votes == votes[..|votes| - 1] + [last];
      if last.pollUuid == u then rest + [last] else rest
  }

  /** `scan` is what `SELECT ... FROM vote WHERE poll_uuid = u` delivers, in
      whatever order the pages arrive: the poll's vote rows, each once. */
  predicate IsVoteScan(db: Db, u: Uuid, scan: seq<VoteRow>) {
    multiset(scan) == multiset(VotesOf(db.votes, u))
  }

  /** `scan` is what `SELECT idx, response FROM poll_responses WHERE uuid = u`
      delivers, in any order: exactly the poll's response rows. */
  predicate IsResponseScan(db: Db, u: Uuid, scan: seq<PollResponse>) {
    && (forall row :: row in scan ==>
          row.uuid == u && (u, row.idx) in db.responses && db.responses[(u, row.idx)] == row.response)
    && (forall key :: key in db.responses && key.0 == u ==> PollResponse(u, key.1, db.responses[key]) in scan)
  }
}

=== FILE: tokens.dfy ===
/** Signed tokens. The service signs a JSON payload with a secret and later
    verifies it; the cryptography itself is abstracted away: a token is either
    the symbolic result of signing some claims with some key, or an opaque
    string nobody signed. Verification with a key succeeds exactly on tokens
    signed with that key, which is the property the service relies on. */
module Tokens {
  import opened Wrappers

  type Uuid = string

  /** The signing secret. */
  type Key = string

  /** The decoded payload of any token the service signed. Every field is
      optional because the service signs two payload shapes (the voter token
      and the close token) and checks field presence before use. */
  datatype Claims = Claims(
    uuid: Option<Uuid>,
    question: Option<string>,
    freeResponse: Option<bool>,
    responses: Option<seq<string>>,
    started: Option<int>)

  /** The empty object `{}` a failed verification leaves behind. */
  const NoClaims: Claims := Claims(None, None, None, None, None)

  datatype Token = Signed(claims: Claims, key: Key) | Opaque(text: string)

  function Verify(t: Token, key: Key): (r: Option<Claims>)
  {
    if t.Signed? && t.key == key then Some(t.claims) else None
  }

  /** Signing then verifying with the same key gives the claims back. */
  function Sign(c: Claims, key: Key): (t: Token)
    ensures Verify(t, key) == Some(c)
    ensures forall other: Key :: other != key ==> Verify(t, other).None?
  {
    Signed(c, key)
  }

  /** Only tokens signed with the key verify under it: a verified token is
      the signature of exactly the claims it yields. */
  lemma VerifiedTokenIsOwnSignature(t: Token, key: Key)
    requires Verify(t, key).Some?
    ensures t == Sign(Verify(t, key).value, key)
  {
  }
}

=== FILE: vote.dfy ===
/** Vote admission (src/vote.ts). Admission is decided from the voter
    token's payload and the request body alone; the database is only written,
    never read. */
module Vote {
  import opened Wrappers
  import opened Tokens
  import opened Models
  import opened Store

  /** The stand-in the admission test uses for a falsy `responseIdx`. */
  const NoIndex: int := 99999

  /** `x || fallback` for an optional number: both absence and 0 are falsy. */
  function OrElse(x: Option<int>, fallback: int): (r: int)
    ensures x.Some? && x.value != 0 ==> r == x.value
    ensures x.None? || x.value == 0 ==> r == fallback
  {
    if x.Some? && x.value != 0 then x.value else fallback
  }

  /** The handler's refusal test, over the token payload and the body. */
  function Disallowed(poll: Claims, vote: VoteCreation): (refused: bool)
    ensures vote.customResponse.Some? ==>
      (refused <==> poll.freeResponse != Some(true) || vote.responseIdx.Some?)
    ensures vote.customResponse.None? && poll.freeResponse != Some(false) ==> refused
    ensures vote.customResponse.None? && poll.freeResponse == Some(false) && vote.responseIdx.Some? && vote.responseIdx.value != 0 ==>
      (refused <==> vote.responseIdx.value >= |poll.responses.GetOr([])|)
    ensures vote.customResponse.None? && poll.freeResponse == Some(false) && (vote.responseIdx.None? || vote.responseIdx.value == 0) ==>
      (refused <==> |poll.responses.GetOr([])| <= NoIndex)
  {
    var custom := vote.customResponse.Some?;
    || poll.freeResponse != Some(custom)
    || (custom && vote.responseIdx.Some?)
    || (!custom && OrElse(vote.responseIdx, NoIndex) >= |poll.responses.GetOr([])|)
  }

  /** The row an admitted vote inserts: the free text, or the answer index. */
  function VoteRowFor(u: Uuid, vote: VoteCreation): (row: VoteRow)
    ensures row.pollUuid == u
    ensures row.customResponse.Some? <==> vote.customResponse.Some?
    ensures row.responseIdx.Some? <==> vote.customResponse.None?
    ensures vote.customResponse.Some? ==> row.customResponse == vote.customResponse
    ensures vote.customResponse.None? ==> row.responseIdx == Some(vote.responseIdx.GetOr(0))
  {
    if vote.customResponse.Some? then VoteRow(u, None, Some(vote.customResponse.value))
    else VoteRow(u, Some(OrElse(vote.responseIdx, 0)), None)
  }

  /** Admission from the verified payload: a payload without `uuid` is not a
      voter token; otherwise the vote must match the poll's kind and, for an
      indexed poll, pass the index test. */
  function Admit(poll: Claims, vote: VoteCreation): (r: Result<VoteRow, Refusal>)
    ensures r.Success? ==> poll.uuid.Some? && r.value == VoteRowFor(poll.uuid.value, vote)
    ensures poll.uuid.None? ==> r == Failure(InvalidJwt)
    ensures poll.uuid.Some? ==> (r.Failure? <==> Disallowed(poll, vote))
    ensures r.Failure? && poll.uuid.Some? ==> r.error == InvalidVote
  {
    if poll.uuid.None? then Failure(InvalidJwt)
    else if Disallowed(poll, vote) then Failure(InvalidVote)
    else Success(VoteRowFor(poll.uuid.value, vote))
  }

  /** The vote handler: validate, verify the token, admit, insert one row.
      Returns the inserted row on success together with the new database. */
  function AddVote(body: Body, key: Key, db: Db): (out: (Result<VoteRow, Refusal>, Db))
    ensures out.0.Success? ==> out.1 == InsertVote(db, out.0.value)
    ensures out.0.Failure? ==> out.1 == db
    ensures out.0.Success? ==> VoteCreationValid(body) && Given(body, "pollJwt") && body["pollJwt"].Jwt?
    ensures out.0.Success? ==> body["pollJwt"] == Jwt(Sign(ClaimsOf(body["pollJwt"], key), key))
    ensures !VoteCreationValid(body) ==> out.0 == Failure(ValidationFailed)
    ensures VoteCreationValid(body) ==> out.0 == Admit(ClaimsOf(body["pollJwt"], key), ParseVoteCreation(body).value)
  {
    match ParseVoteCreation(body)
    case Failure(e) => (Failure(e), db)
    case Success(vote) =>
      match Admit(ClaimsOf(vote.pollJwt, key), vote)
      case Failure(e) => (Failure(e), db)
      case Success(row) => (Success(row), InsertVote(db, row))
  }

  // ---------------------------------------------------------------------------
  // Consequences of the admission test

  /** Admission never reads the database: the answer is the same whatever
      the tables hold, and a refused vote leaves them untouched. */
  lemma AdmissionIgnoresDatabase(body: Body, key: Key, db1: Db, db2: Db)
    ensures AddVote(body, key, db1).0 == AddVote(body, key, db2).0
    ensures AddVote(body, key, db1).0.Failure? ==> AddVote(body, key, db1).1 == db1
  {
  }

  /** A body whose token does not verify gets 'Invalid JWT' and writes nothing. */
  lemma UnverifiedTokenRejected(body: Body, key: Key, db: Db)
    requires VoteCreationValid(body)
    requires forall c: Claims :: body["pollJwt"] != Jwt(Sign(c, key))
    ensures AddVote(body, key, db) == (Failure(InvalidJwt), db)
  {
    assert ClaimsOf(body["pollJwt"], key) == NoClaims;
  }

  /** Index 0 counts as a missing index, so it is refused by every poll with
      at most 99999 answers, and accepted only by larger ones. */
  lemma ZeroIndexRefused(poll: Claims, vote: VoteCreation)
    requires poll.uuid.Some? && poll.freeResponse == Some(false)
    requires vote.customResponse.None? && vote.responseIdx == Some(0)
    ensures Admit(poll, vote).Success? <==> |poll.responses.GetOr([])| > NoIndex
  {
  }

  /** A vote with no index at all is treated like index 0. */
  lemma MissingIndexRefused(poll: Claims, vote: VoteCreation)
    requires poll.uuid.Some? && poll.freeResponse == Some(false)
    requires vote.customResponse.None? && vote.responseIdx.None?
    ensures Admit(poll, vote).Success? <==> |poll.responses.GetOr([])| > NoIndex
    ensures Admit(poll, vote).Success? ==> Admit(poll, vote).value.responseIdx == Some(0)
  {
  }

  /** The index test has no lower bound: a negative index is admitted by any
      indexed poll and stored as given. */
  lemma NegativeIndexAdmitted(poll: Claims, vote: VoteCreation, i: int)
    requires poll.uuid.Some? && poll.freeResponse == Some(false)
    requires vote.customResponse.None? && vote.responseIdx == Some(i) && i < 0
    ensures Admit(poll, vote) == Success(VoteRow(poll.uuid.value, Some(i), None))
  {
  }

  /** A payload with no candidate answers refuses every non-negative index. */
  lemma NoAnswersRefuseIndex(poll: Claims, vote: VoteCreation)
    requires poll.responses.None?
    requires vote.customResponse.None?
    requires vote.responseIdx.None? || vote.responseIdx.value >= 0
    ensures Admit(poll, vote).Failure?
  {
  }

  /** The admission test for an indexed vote, for a payload signed for an
      indexed poll with `n` answers: anything below `n` except 0 passes. */
  lemma IndexedAdmission(poll: Claims, vote: VoteCreation, n: nat, i: int)
    requires poll.uuid.Some? && poll.freeResponse == Some(false)
    requires poll.responses.Some? && |poll.responses.value| == n && n <= NoIndex
    requires vote.customResponse.None? && vote.responseIdx == Some(i)
    ensures Admit(poll, vote).Success? <==> i < n && i != 0
  {
  }

  /** A free-text vote is admitted exactly by a free-response payload, and
      only when it carries no index. */
  lemma FreeTextAdmission(poll: Claims, vote: VoteCreation)
    requires poll.uuid.Some?
    requires vote.customResponse.Some?
    ensures Admit(poll, vote).Success? <==> poll.freeResponse == Some(true) && vote.responseIdx.None?
  {
  }

  /** A close token is no voter token: it has `uuid` but no `freeResponse`,
      so every vote made with it is refused. */
  lemma CloseTokenCannotVote(e: PollEndJwt, vote: VoteCreation)
    ensures Admit(EndClaims(e), vote) == Failure(InvalidVote)
  {
  }
}

=== FILE: wrappers.dfy ===
/** Optional values and success/failure results, used wherever the source has
    an optional field (`?:` in TypeScript) or an early error response. */
module Wrappers {

  /** An optional value; `None` plays the role of `undefined`. */
  datatype Option<+T> = None | Some(value: T) {

    /** The JavaScript idiom `x || fallback` for a field that is never falsy when present. */
    function GetOr(fallback: T): T {
      match this
      case Some(v) => v
      case None => fallback
    }
  }

  /** The outcome of a request handler: a value, or the error it answers with. */
  datatype Result<+R, +E> = Success(value: R) | Failure(error: E)
}
